=== FILE: README.md ===
# gpt-headline-trader, modelled in Dafny

A model of the decision core of gpt-headline-trader, a bot that trades on news
headlines. For each ticker the bot does five things:

1. It scrapes the ticker's news table back to the start of the most recent
   trading period.
2. It converts the rows into headline records.
3. It asks a language model whether each headline is good or bad news and
   scores the first word of the answer as +1, 0 or -1.
4. It sums and averages the scores.
5. It picks the three tickers with the lowest average to trade.

Alongside these, a helper maps each headline's publish time to the first
session open or close at which it can be traded.

The model works on an abstract exchange calendar, `Date -> Option<Session>`.
Times are calendar dates with an hour and a minute. The language model is a
function parameter from a prompt to an optional response.

Modules:

- `Times`: dates, wall-clock instants and their order. Day arithmetic uses
  month lengths and leap years.
- `TimeFormat`: `%Y-%m-%d %H:%M` formatting, and the strict parse that
  inverts it.
- `Schedule`: the exchange calendar.
- `Records`: the records that pass between the stages.
- `Seqs`: order-preserving filter-map, the shape of every "append some items"
  loop in the bot.
- `TradingUtils`: the session mapping, and the total and mean of the scores.
- `FinvizUtils`: the period start, the timestamp cells, the row scan and the
  news items.
- `DataUtils`: news items into headline records, and preprocessing.
- `GptUtils`: the prompt template and the response classifier.
- `Bot`: the per-ticker records and summary, the accumulation into the
  ticker dictionary, and the worst-three selection.

Where the code and its documentation disagree, the model follows the code:

- `preprocess_headlines` is documented as removing duplicates and irrelevant
  headlines. It returns its input unchanged, so `DataUtils.PreprocessHeadlines`
  is the identity.
- The session mapping looks only one calendar day ahead. A headline after a
  Friday close gets no trade time; it is not mapped to Monday's open.
- The news scan stops at the first row older than the period start. Later
  rows are never read, even recent or malformed ones.

## Model

| member | source | states |
|---|---|---|
| TradingUtils.MapToSession | utils/trading_utils.py:30-52 | a trade time exists only if the publish day trades |
| TradingUtils.MapToSessionIsFirstBoundary | utils/trading_utils.py:36-52 | the trade time is the earliest open or close of the publish day or the next day at or after the publish time; no trade time means a non-trading publish day or every nearby boundary already passed |
| TradingUtils.MapToSessionNotBeforePublish | utils/trading_utils.py:40-50 | a headline is never traded before it was published |
| TradingUtils.MapToSessionIdempotent | utils/trading_utils.py:36-52 | a trade time maps to itself |
| TradingUtils.MapHeadlines | utils/trading_utils.py:13-57 | the mapped list is never longer than the headline list |
| TradingUtils.MapHeadlinesSubsequence | utils/trading_utils.py:30-57 | the output keeps input order; entry k is one headline's text with that headline's trade time; exactly the headlines with no trade time are dropped |
| TradingUtils.MapHeadlinesAppend | utils/trading_utils.py:30-55 | each headline is mapped independently of the others |
| TradingUtils.CumulativeScore | utils/trading_utils.py:61-75 | the total of n scores in {-1,0,1} lies in [-n, n] |
| TradingUtils.CumulativeScoreAppend | utils/trading_utils.py:75 | the total of a concatenation is the sum of the totals |
| TradingUtils.CumulativeScoreCountsVotes | utils/trading_utils.py:75 | the total is the number of +1 scores minus the number of -1 scores |
| TradingUtils.AverageScore | utils/trading_utils.py:77-91 | the mean is undefined exactly for no scores; otherwise mean times count is the total, and it lies in [-1, 1] |
| Times.NextDate | utils/trading_utils.py:48 | the day after a valid date is a later valid date, and the day before it is the date again |
| Times.DaysBefore | utils/finviz_utils.py:87 | 0 days back is the date itself; k days back from a valid date is a valid, strictly earlier date for k > 0 |
| Times.DaysBeforeStep | utils/finviz_utils.py:87 | the day after k days back is k - 1 days back, so each step back is exactly one calendar day |
| Times.AdjacentDays | utils/finviz_utils.py:87 | no valid date lies strictly between a date and the day before or after it |
| Times.DaysBeforeMonotone | utils/finviz_utils.py:86-87 | going further back gives a strictly earlier date |
| FinvizUtils.MostRecentPeriodStart | utils/finviz_utils.py:70-94 | as written: on a trading day the start is that day's open or close (the close once it has passed), and a missing start means today does not trade |
| FinvizUtils.PreviousClose | utils/finviz_utils.py:85-94 | no previous close exactly when none of the days k..10 back trades |
| FinvizUtils.PreviousCloseIsNearest | utils/finviz_utils.py:85-91 | a found close is the close of the nearest trading day in range |
| FinvizUtils.PeriodStartNoneIff | utils/finviz_utils.py:70-94 | the period start is missing exactly when neither today nor any of the ten previous days trades |
| FinvizUtils.PeriodStartCases | utils/finviz_utils.py:70-91 | on a trading day: the open until the close has passed, the close afterwards; otherwise the close of the nearest trading day one to ten days back |
| FinvizUtils.PreMarketRunFindsNoNews | utils/finviz_utils.py:77-79 | before the open the start is today's still-future open, and a table whose newest row is already published yields no news |
| FinvizUtils.PeriodStartCorrected | utils/finviz_utils.py:70-94 | the start with the pre-market case corrected |
| FinvizUtils.PeriodStartCorrectedNotAfterNow | utils/finviz_utils.py:70-94 | the corrected start is never in the future |
| FinvizUtils.PeriodStartCorrectedIsLatest | utils/finviz_utils.py:70-94 | every open or close of today or the ten days before that lies strictly before now is at or before the corrected start, which therefore exists |
| FinvizUtils.PeriodStartCorrectedIsBoundary | utils/finviz_utils.py:70-94 | the corrected start is the open or close of today or of a trading day at most ten days back |
| FinvizUtils.PeriodStartCorrectedAgrees | utils/finviz_utils.py:77-94 | the correction changes nothing except runs before the day's open |
| FinvizUtils.Hour24 | utils/finviz_utils.py:126-129 | `%I` with `%p` gives an hour in 0..23 that is afternoon exactly when the marker is PM |
| FinvizUtils.ClockOf | utils/finviz_utils.py:126-129 | every 24-hour time has a valid 12-hour reading that converts back to it |
| FinvizUtils.ClockOfHour24 | utils/finviz_utils.py:126-130 | the 12-hour reading is recovered from the 24-hour hour |
| FinvizUtils.CenturyYear | utils/finviz_utils.py:126 | a two-digit year becomes a year in 1969..2068 with the same last two digits |
| FinvizUtils.ParseStamp | utils/finviz_utils.py:123-130 | a parsed cell has a valid instant with the clock's hour and minute; a full stamp is dated by its own month, day and `%y` century year; a bare time takes the date of the last dated row; it fails with no date exactly for a bare time before any dated row, and as malformed exactly for an invalid clock or an invalid full date |
| FinvizUtils.ScanRows | utils/finviz_utils.py:120-144 | every kept item is at or after the start, at most one per row, with a valid instant |
| FinvizUtils.ResolveStamps | utils/finviz_utils.py:121-130 | one instant per row, with that row's own clock hour and minute; a full stamp has its own month, day and `%y` century year as date; a bare time has the previous row's date |
| FinvizUtils.CountRecent | utils/finviz_utils.py:132-134 | the leading run of instants at or after the start, ended by the first older one |
| FinvizUtils.ScanFailureIsResolveFailure | utils/finviz_utils.py:121-134 | the scan raises only where resolving the rows raises, with the same error |
| FinvizUtils.BadRowBeforeCutRaises | utils/finviz_utils.py:121-134 | a row that cannot be resolved (malformed, or a bare time with no date yet) after only recent rows makes the scan raise |
| FinvizUtils.ScanStopsAtOldRow | utils/finviz_utils.py:132-134 | once the rows read hold one older than the start, any rows after them, malformed or not, leave the result unchanged |
| FinvizUtils.ScanIsCutThenFilter | utils/finviz_utils.py:121-143 | the scan cuts the rows at the first one older than the start and keeps the linked rows before the cut |
| FinvizUtils.StripEnds | utils/finviz_utils.py:141 | the source name is the text without its first and last characters |
| FinvizUtils.ToNewsItem | utils/finviz_utils.py:135-142 | the date and time text parse back to the row's instant; headline and url are copied; the source is stripped |
| FinvizUtils.GetNews | utils/finviz_utils.py:98-144 | no table or no start gives no news; otherwise it raises exactly when the row scan raises, and item k is scanned row k: its date and time parse to that row's instant (at or after the start), headline and url copied, source stripped |
| TimeFormat.ParseOfFormat | utils/data_utils.py:26 | parsing a formatted instant gives the instant back |
| TimeFormat.FormatOfParse | utils/data_utils.py:26 | formatting a text the zero-padded parse accepts gives the text back |
| DataUtils.ToHeadline | utils/data_utils.py:25-29 | a record exists exactly when the text parses in zero-padded form, and it carries the parsed instant, headline and url |
| DataUtils.GetHeadlines | utils/data_utils.py:8-31 | one record per item in order, or failure because some item does not parse |
| DataUtils.HeadlinesOfScannedNews | utils/data_utils.py:24-30 | scraped news always converts, and each record carries the scanned instant, headline and url |
| DataUtils.FetchHeadlines | utils/data_utils.py:22-31 | given the period start: no table or no start gives no headlines, at most one per row, each published at or after the start |
| DataUtils.FetchHeadlinesIsScan | utils/data_utils.py:22-31 | fetching fails exactly when the row scan raises; otherwise the records are the scanned rows in order |
| DataUtils.PreMarketFetch | utils/data_utils.py:22-31 | with the as-written start, a run before the day's open fetches no headlines from a table whose newest row is already published |
| GptUtils.FirstWord | utils/gpt_utils.py:107 | the first word is a prefix with no space, ended by a space or the end of the text |
| GptUtils.Upper | utils/gpt_utils.py:107 | upper casing keeps the length and maps each character |
| GptUtils.ContainsIffOccurs | utils/gpt_utils.py:110-115 | substring containment holds exactly when the piece starts at some position |
| GptUtils.ClassifyResponse | utils/gpt_utils.py:91-120 | the score is in {-1,0,1}; +1 exactly when the upper-cased first word contains YES; -1 exactly when it contains NO but neither YES nor UNKNOWN |
| GptUtils.ClassifyIgnoresRest | utils/gpt_utils.py:107 | text after the first space never changes the score |
| GptUtils.ClassifyIsCaseInsensitive | utils/gpt_utils.py:107 | responses equal up to upper casing score alike |
| GptUtils.ClassifyUnknown | utils/gpt_utils.py:110-113 | "UNKNOWN" scores 0 although it contains "NO" |
| GptUtils.ClassifyNot | utils/gpt_utils.py:114-115 | "NOT" scores -1 |
| GptUtils.ClassifyYesNo | utils/gpt_utils.py:110-111 | the example "yesno" scores +1: YES is tested before NO |
| GptUtils.ClassifyLeadingSpace | utils/gpt_utils.py:107-120 | a leading space gives an empty first word, which scores 0 |
| GptUtils.GeneratePrompt | utils/gpt_utils.py:10-38 | two messages: the fixed system text, then a user question naming the company and ending with the headline |
| GptUtils.PromptDeterminesHeadline | utils/gpt_utils.py:28-37 | for one company, prompts are equal exactly when headlines are equal; the term plays no part |
| Bot.ScoreHeadline | main.py:34-46 | a record exists exactly when the model answered the headline's prompt; it holds the headline, that answer, and the answer's score in {-1,0,1} |
| Bot.BuildRecords | main.py:30-46 | at most one record per headline, each scored by classifying its own response |
| Bot.BuildRecordsSubsequence | main.py:33-46 | records follow headline order, each holding its headline's response; exactly the unanswered headlines are skipped |
| Bot.BuildRecordsAsWritten | main.py:33-46 | the record loop with the response classified before the missing-response check |
| Bot.MissingResponseAborts | main.py:35-39 | as written, one unanswered headline makes the loop raise; with every headline answered it agrees with the corrected loop |
| Bot.ScoresOf | main.py:49-50 | the score list is the records' scores in order |
| Bot.ProcessTicker | main.py:11-62 | no summary exactly when fetching raised or found no headlines; otherwise the records are those the record loop builds from the headlines, with total and mean of exactly their scores, total within ± record count, mean in [-1, 1], buy and sell times copied from the period |
| Bot.SetEntry | main.py:83 | dictionary assignment keeps keys distinct, adds the key once, and leaves the other entries unchanged |
| Bot.CollectTickerData | main.py:77-84 | one entry per listed ticker that produced a summary, keys distinct, each holding that ticker's summary |
| Bot.CollectDistinctIsFilter | main.py:80-83 | with no ticker listed twice, the dictionary is the processed tickers in list order |
| Bot.RunTickers | main.py:77-84 | a ticker is in the dictionary exactly when its headlines were fetched and non-empty, with its own summary |
| Bot.SelectLowest | main.py:67 | the min(n, len) positions with the smallest keys, ascending, ties by position; every selected key precedes every unselected one |
| Bot.WorstTickers | main.py:65-67 | up to three distinct tickers, ordered by average with ties in dictionary order; none left out has a lower average, or an equal one earlier in the dictionary |

## Left out

- Network and HTML: page download, the page cache, and CSS/XPath selection are not modelled. Neither is the `IndexError` of a linked row without a source span. A page is either no news table or a sequence of rows. Each row is a parsed timestamp cell and an optional link of headline, url and source text.
- Timestamp cell text: the month abbreviation, the "longer than eight characters" test and strptime's tolerance of unpadded fields are abstracted into the cell's fields. strptime's range checks are kept; a failure is `MalformedStamp`.
- Exchange calendar: `pandas_market_calendars` is replaced by the `Calendar` parameter.
- Timezones: the US/Pacific and US/Eastern conversions and the `tzinfo` replacement of scraped stamps are left out, including pytz's local-mean-time offset when a zone is attached that way. All instants share one wall clock.
- The clock: the current time is the `now` parameter.
- Language model: the OpenAI call, its retries and its rate limiting are left out. The responder parameter returns `None` where the call fails.
- Files and logging: `save_headlines_to_file`, `save_negative_averages`, `execute_trade`'s JSON output and every log line are left out. This includes the log line in `execute_trades` that reads a `trade_time` key the summary never has.
- `get_current_market_period` and the configuration are left out. The trade period and the ticker list are parameters.
- Call sites: `process_ticker` calls `get_headlines` and `generate_prompt` with argument lists those functions do not accept. The model connects them as evidently meant: headlines fetched for the ticker, and the prompt built from the headline text with the ticker as company name. The source passes the whole headline record (publish time, text and url) as `headline`, so its prompt would embed that record's printed form; `Bot.PromptFor` passes only the headline text, while each `Record` keeps the whole headline record, as the source does.
- DataUtils.FetchHeadlines: takes the period start as a parameter. In the source `get_news` computes it itself, as `FinvizUtils.MostRecentPeriodStart` (as written) does; `FinvizUtils.PeriodStartCorrected` is the start the corrected program passes.
- DataUtils.ToHeadline: parses only the zero-padded `YYYY-MM-DD HH:MM` form with a four-digit year. strptime also accepts one-digit month, day, hour and minute, runs of whitespace for the space, and years below 1000. The scraper always writes the padded form, so converted scraped news is unaffected (`DataUtils.HeadlinesOfScannedNews`).
- TimeFormat.FormatOfParse: holds for the zero-padded parse only; a text strptime accepts in unpadded form formats back to its padded spelling, not to itself.
- Bot.ProcessTicker: the fetch result is a parameter (`Bot.RunTickers` takes a per-ticker fetch), because the page and the clock are outside the model.
- GptUtils.Upper: cases ASCII letters only; Python's full Unicode `upper()` is not modelled.
- Bot.WorstTickers: requires every ticker to have an average. Python compares a NaN mean inconsistently, and a missing one cannot be ordered.
- DataUtils.PreprocessHeadlines: the identity, as in the source. Its contract just says so, so it has no row above.
- Floating point: scores are integers and the mean is an exact real. NumPy's float sum and mean are not modelled.

## Findings

| source | as written | input that shows it | evidently intended | confidence | as-written member | corrected member |
|---|---|---|---|---|---|---|
| main.py:35-39 | the response is classified before the check for a missing response, so a `None` response raises on `None.split` outside any handler and ends the run | a headline for which the model call fails (any API error makes it return `None`) | skip the headline, as the check on line 38 means to | high, not executed | Bot.MissingResponseAborts | Bot.BuildRecords |
| utils/finviz_utils.py:77-79 | before today's open, today's still-future open is returned as the period start, so on one wall clock every already-published row is too old | a run at 08:00 on a trading day that opens at 09:30 | the most recent boundary already reached: the previous trading day's close | low, not executed; the US/Pacific labelling of scraped stamps shifts them, so some pre-open rows may still pass in the real program | FinvizUtils.PreMarketRunFindsNoNews | FinvizUtils.PeriodStartCorrectedIsBoundary |

`Bot.ProcessTicker` uses `Bot.BuildRecords`. `DataUtils.FetchHeadlines` takes the period start, so it serves both the as-written start (`DataUtils.PreMarketFetch`) and `FinvizUtils.PeriodStartCorrected`.

=== FILE: bot.dfy ===
/** The per-ticker orchestration, the accumulation over the ticker list and
    the worst-three selection of `main.py`. The language-model call is a
    parameter: a responder from a prompt to the response text, `None` when
    the call failed. */
module Bot {
  import opened Wrappers
  import opened Records
  import opened Seqs
  import opened TradingUtils
  import opened GptUtils
  import opened DataUtils

  type Responder = seq<Message> -> Option<string>

  // ---------------------------------------------------------------------
  // Records of one ticker
  // ---------------------------------------------------------------------

  /** The prompt for one headline: the ticker stands in for the company name. */
  function PromptFor(ticker: string, h: Headline): seq<Message> {
    GeneratePrompt(h.headline, ticker, "")
  }

  /** The record of one headline, or `None` when the model gave no response. */
  function ScoreHeadline(ticker: string, h: Headline, respond: Responder): (r: Option<Record>)
    ensures r.Some? <==> respond(PromptFor(ticker, h)).Some?
    ensures r.Some? ==>
              && r.value.headline == h
              && respond(PromptFor(ticker, h)) == Some(r.value.response)
              && IsScore(r.value.score)
              && r.value.score == ClassifyResponse(r.value.response)
  {
    match respond(PromptFor(ticker, h))
    case None => None
    case Some(response) => Some(Record(h, response, ClassifyResponse(response)))
  }

  /** The records of a ticker's headlines: one per answered headline, in
      headline order, each scored from its own response. */
  function BuildRecords(ticker: string, hs: seq<Headline>, respond: Responder): (r: seq<Record>)
    ensures |r| <= |hs|
    ensures forall k :: 0 <= k < |r| ==> IsScore(r[k].score) && r[k].score == ClassifyResponse(r[k].response)
  {
    FilterMapAll(h => ScoreHeadline(ticker, h, respond), hs,
                 (rec: Record) => IsScore(rec.score) && rec.score == ClassifyResponse(rec.response));
    FilterMap(h => ScoreHeadline(ticker, h, respond), hs)
  }

  /** Record `k` belongs to headline `idx[k]` and holds that headline's
      response; the headlines not recorded are exactly those the model did
      not answer, so no headline is recorded twice. */
  lemma BuildRecordsSubsequence(ticker: string, hs: seq<Headline>, respond: Responder) returns (idx: seq<nat>)
    ensures IncreasingIndices(idx, |hs|)
    ensures |idx| == |BuildRecords(ticker, hs, respond)|
    ensures forall k :: 0 <= k < |idx| ==>
              && BuildRecords(ticker, hs, respond)[k].headline == hs[idx[k]]
              && respond(PromptFor(ticker, hs[idx[k]])) == Some(BuildRecords(ticker, hs, respond)[k].response)
    ensures forall i :: 0 <= i < |hs| && i !in idx ==> respond(PromptFor(ticker, hs[i])).None?
  {
    idx := FilterMapSubsequence(h => ScoreHeadline(ticker, h, respond), hs);
  }

  function ScoresOf(records: seq<Record>): (s: seq<int>)
    ensures |s| == |records|
    ensures forall k :: 0 <= k < |records| ==> s[k] == records[k].score
  {
    seq(|records|, k requires 0 <= k < |records| => records[k].score)
  }

  /** The summary of one ticker: `None` when fetching its headlines raised or
      found none. `fetched` is the fetch from `period.headlineStart` (the
      `start` that `DataUtils.FetchHeadlines` takes); otherwise its records, the total and mean of exactly their
      scores, and the trade period's buy and sell times. */
  function ProcessTicker(ticker: string, period: TradePeriod, fetched: Option<seq<Headline>>, respond: Responder)
    : (r: Option<TickerInfo>)
    ensures r.None? <==> fetched.None? || |fetched.value| == 0
    ensures r.Some? ==> r.value.records == BuildRecords(ticker, fetched.value, respond)
    ensures r.Some? ==>
              && |r.value.records| <= |fetched.value|
              && r.value.total == CumulativeScore(ScoresOf(r.value.records))
              && r.value.average == AverageScore(ScoresOf(r.value.records))
              && r.value.buyTime == period.buyTime
              && r.value.sellTime == period.sellTime
    ensures r.Some? ==> -|r.value.records| <= r.value.total <= |r.value.records|
    ensures r.Some? && r.value.average.Some? ==> -1.0 <= r.value.average.value <= 1.0
  {
    match fetched
    case None => None
    case Some(headlines) =>
      if |headlines| == 0 then None
      else
        var records := BuildRecords(ticker, PreprocessHeadlines(headlines), respond);
        var scores := ScoresOf(records);
        assert AllScores(scores);
        Some(TickerInfo(records, AverageScore(scores), CumulativeScore(scores), period.buyTime, period.sellTime))
  }

  // ---------------------------------------------------------------------
  // The loop as written: a missing response reaches the classifier
  // ---------------------------------------------------------------------

  /** The run-ending error of classifying a missing response. */
  datatype Crash = NoResponseToSplit

  /** The record loop as written: the response is classified before the
      `None` check, so a missing response raises out of the ticker (and the run). */
  function BuildRecordsAsWritten(ticker: string, hs: seq<Headline>, respond: Responder): Result<seq<Record>, Crash> {
    if |hs| == 0 then Success([])
    else
      match respond(PromptFor(ticker, hs[0]))
      case None => Failure(NoResponseToSplit)
      case Some(response) =>
        match BuildRecordsAsWritten(ticker, hs[1..], respond)
        case Failure(e) => Failure(e)
        case Success(rest) => Success([Record(hs[0], response, ClassifyResponse(response))] + rest)
  }

  /** As written, one unanswered headline aborts the ticker instead of being
      skipped; when every headline is answered the two loops agree. */
  lemma {:induction false} MissingResponseAborts(ticker: string, hs: seq<Headline>, respond: Responder)
    ensures (exists i :: 0 <= i < |hs| && respond(PromptFor(ticker, hs[i])).None?) ==>
              BuildRecordsAsWritten(ticker, hs, respond) == Failure(NoResponseToSplit)
    ensures (forall i :: 0 <= i < |hs| ==> respond(PromptFor(ticker, hs[i])).Some?) ==>
              BuildRecordsAsWritten(ticker, hs, respond) == Success(BuildRecords(ticker, hs, respond))
  {
    if |hs| > 0 {
      MissingResponseAborts(ticker, hs[1..], respond);
      assert forall i :: 1 <= i < |hs| ==> hs[i] == hs[1..][i - 1];
      if exists i :: 0 <= i < |hs| && respond(PromptFor(ticker, hs[i])).None? {
        var i :| 0 <= i < |hs| && respond(PromptFor(ticker, hs[i])).None?;
        if i > 0 {
          assert respond(PromptFor(ticker, hs[1..][i - 1])).None?;
        }
      }
    }
  }

  // ---------------------------------------------------------------------
  // Accumulation over the ticker list
  // ---------------------------------------------------------------------

  /** A dictionary keeping insertion order, as a list of entries. */
  type TickerData = seq<(string, TickerInfo)>

  function Keys(d: TickerData): (ks: seq<string>)
    ensures |ks| == |d|
    ensures forall k :: 0 <= k < |d| ==> ks[k] == d[k].0
  {
    seq(|d|, k requires 0 <= k < |d| => d[k].0)
  }

  predicate DistinctKeys(d: TickerData) {
    forall a, b :: 0 <= a < b < |d| ==> d[a].0 != d[b].0
  }

  /** `d[key] = value`: overwrite in place when the key is present, otherwise append. */
  function SetEntry(d: TickerData, key: string, value: TickerInfo): (r: TickerData)
    requires DistinctKeys(d)
    ensures DistinctKeys(r)
    ensures key in Keys(r)
    ensures forall t :: t in Keys(r) <==> t in Keys(d) || t == key
    ensures |r| == if key in Keys(d) then |d| else |d| + 1
    ensures forall k :: 0 <= k < |r| && r[k].0 == key ==> r[k].1 == value
    ensures forall k :: 0 <= k < |r| && r[k].0 != key ==> r[k] in d
    ensures forall k :: 0 <= k < |d| ==> r[k].0 == d[k].0
  {
    if key in Keys(d) then
      var i :| 0 <= i < |d| && d[i].0 == key;
      var r := d[i := (key, value)];
      assert Keys(r) == Keys(d);
      r
    else
      var r := d + [(key, value)];
      assert Keys(r) == Keys(d) + [key];
      r
  }

  /** The dictionary the main loop builds: every ticker whose processing gave
      a summary, in ticker-list order, each with its own summary. */
  function CollectTickerData(tickers: seq<string>, process: string -> Option<TickerInfo>): (d: TickerData)
    ensures DistinctKeys(d)
    ensures forall t :: t in Keys(d) <==> t in tickers && process(t).Some?
    ensures forall k :: 0 <= k < |d| ==> process(d[k].0) == Some(d[k].1)
    decreases |tickers|
  {
    if |tickers| == 0 then []
    else
      var init := tickers[..|tickers| - 1];
      var last := tickers[|tickers| - 1];
      var d := CollectTickerData(init, process);
      assert forall t :: t in tickers <==> t in init || t == last;
      match process(last)
      case None => d
      case Some(info) => SetEntry(d, last, info)
  }

  function Entry(process: string -> Option<TickerInfo>, t: string): Option<(string, TickerInfo)> {
    match process(t)
    case None => None
    case Some(info) => Some((t, info))
  }

  /** With no ticker listed twice the dictionary is just the processed
      tickers in list order. */
  lemma {:induction false} CollectDistinctIsFilter(tickers: seq<string>, process: string -> Option<TickerInfo>)
    requires forall a, b :: 0 <= a < b < |tickers| ==> tickers[a] != tickers[b]
    ensures CollectTickerData(tickers, process) == FilterMap(t => Entry(process, t), tickers)
    decreases |tickers|
  {
    if |tickers| > 0 {
      var init := tickers[..|tickers| - 1];
      var last := tickers[|tickers| - 1];
      CollectDistinctIsFilter(init, process);
      FilterMapAppend(t => Entry(process, t), init, [last]);
      assert init + [last] == tickers;
      assert last !in init;
      var d := CollectTickerData(init, process);
      assert last !in Keys(d);
      var one := FilterMap(t => Entry(process, t), [last]);
      assert [last][1..] == [];
      assert one == (if process(last).Some? then [(last, process(last).value)] else []);
    }
  }

  /** The main loop over the ticker list. */
  function RunTickers(tickers: seq<string>, period: TradePeriod, fetch: string -> Option<seq<Headline>>,
                      respond: Responder): (d: TickerData)
    ensures DistinctKeys(d)
    ensures forall t :: t in Keys(d) <==> t in tickers && fetch(t).Some? && |fetch(t).value| > 0
    ensures forall k :: 0 <= k < |d| ==> Some(d[k].1) == ProcessTicker(d[k].0, period, fetch(d[k].0), respond)
  {
    CollectTickerData(tickers, t => ProcessTicker(t, period, fetch(t), respond))
  }

  // ---------------------------------------------------------------------
  // Selection of the worst tickers
  // ---------------------------------------------------------------------

  /** How many tickers are traded. */
  const WorstCount: nat := 3

  function Min(a: nat, b: nat): nat {
    if a < b then a else b
  }

  /** The order `sorted` with a stable key sort gives: by key, ties by position. */
  predicate Precedes(keys: seq<real>, i: nat, j: nat)
    requires i < |keys| && j < |keys|
  {
    keys[i] < keys[j] || (keys[i] == keys[j] && i < j)
  }

  /** `Precedes` is a strict total order on positions. */
  lemma PrecedesOrder(keys: seq<real>, i: nat, j: nat, k: nat)
    requires i < |keys| && j < |keys| && k < |keys|
    ensures !Precedes(keys, i, i)
    ensures i != j ==> Precedes(keys, i, j) || Precedes(keys, j, i)
    ensures Precedes(keys, i, j) && Precedes(keys, j, k) ==> Precedes(keys, i, k)
  {
  }

  /** The position in `rest` of the entry that precedes all the others. */
  method FirstInOrder(keys: seq<real>, rest: seq<nat>) returns (p: nat)
    requires |rest| > 0
    requires forall x :: 0 <= x < |rest| ==> rest[x] < |keys|
    requires forall x, y :: 0 <= x < y < |rest| ==> rest[x] != rest[y]
    ensures p < |rest|
    ensures forall y :: 0 <= y < |rest| && y != p ==> Precedes(keys, rest[p], rest[y])
  {
    p := 0;
    var x := 1;
    while x < |rest|
      invariant 0 <= p < |rest| && 1 <= x <= |rest|
      invariant forall y :: 0 <= y < x && y != p ==> Precedes(keys, rest[p], rest[y])
    {
      if Precedes(keys, rest[x], rest[p]) {
        forall y | 0 <= y < x && y != p
          ensures Precedes(keys, rest[x], rest[y])
        {
          PrecedesOrder(keys, rest[x], rest[p], rest[y]);
        }
        p := x;
      } else {
        PrecedesOrder(keys, rest[p], rest[x], rest[x]);
      }
      x := x + 1;
    }
  }

  /** `s` without its entry at position `p`. */
  function RemoveAt(s: seq<nat>, p: nat): (r: seq<nat>)
    requires p < |s|
    ensures |r| == |s| - 1
    ensures forall y :: 0 <= y < |r| ==> r[y] == (if y < p then s[y] else s[y + 1])
    ensures forall y :: 0 <= y < |s| && y != p ==> s[y] in r
  {
    var r := s[..p] + s[p + 1..];
    forall y | 0 <= y < |s| && y != p
      ensures s[y] in r
    {
      if y < p {
        assert r[y] == s[y];
      } else {
        assert r[y - 1] == s[y];
      }
    }
    r
  }

  /** The positions of the `n` smallest keys, smallest first, ties broken by
      position (`sorted(...)[:n]` by key, which is `heapq.nsmallest`): every
      selected position precedes every position left out. */
  method SelectLowest(keys: seq<real>, n: nat) returns (sel: seq<nat>)
    ensures |sel| == Min(n, |keys|)
    ensures forall k :: 0 <= k < |sel| ==> sel[k] < |keys|
    ensures forall a, b :: 0 <= a < b < |sel| ==> Precedes(keys, sel[a], sel[b])
    ensures forall k, j :: 0 <= k < |sel| && 0 <= j < |keys| && j !in sel ==> Precedes(keys, sel[k], j)
  {
    sel := [];
    var rest: seq<nat> := seq(|keys|, i requires 0 <= i => i as nat);
    forall j | 0 <= j < |keys|
      ensures j in rest
    {
      assert rest[j] == j;
    }
    var m := Min(n, |keys|);
    while |sel| < m
      invariant |sel| <= m && |sel| + |rest| == |keys|
      invariant forall k :: 0 <= k < |sel| ==> sel[k] < |keys|
      invariant forall x :: 0 <= x < |rest| ==> rest[x] < |keys|
      invariant forall x, y :: 0 <= x < y < |rest| ==> rest[x] != rest[y]
      invariant forall j :: 0 <= j < |keys| ==> j in sel || j in rest
      invariant forall a, b :: 0 <= a < b < |sel| ==> Precedes(keys, sel[a], sel[b])
      invariant forall k, x :: 0 <= k < |sel| && 0 <= x < |rest| ==> Precedes(keys, sel[k], rest[x])
    {
      var p := FirstInOrder(keys, rest);
      var best := rest[p];
      var rest' := RemoveAt(rest, p);
      forall j | 0 <= j < |keys| && j !in sel + [best]
        ensures j in rest'
      {
        var y :| 0 <= y < |rest| && rest[y] == j;
      }
      sel := sel + [best];
      rest := rest';
    }
    forall k, j | 0 <= k < |sel| && 0 <= j < |keys| && j !in sel
      ensures Precedes(keys, sel[k], j)
    {
      var x :| 0 <= x < |rest| && rest[x] == j;
    }
  }

  /** The average of a ticker known to have one. */
  function AverageOf(entry: (string, TickerInfo)): real
    requires entry.1.average.Some?
  {
    entry.1.average.value
  }

  /** The three tickers with the lowest average, lowest first, ties in
      dictionary order: every selected average is at most every unselected
      one. Every ticker must have an average (some scored record). */
  method WorstTickers(data: TickerData) returns (worst: TickerData, picked: seq<nat>)
    requires forall k :: 0 <= k < |data| ==> data[k].1.average.Some?
    ensures |worst| == |picked| == Min(WorstCount, |data|)
    ensures forall k :: 0 <= k < |picked| ==> picked[k] < |data| && worst[k] == data[picked[k]]
    ensures forall a, b :: 0 <= a < b < |picked| ==> picked[a] != picked[b]
    ensures forall a, b :: 0 <= a < b < |worst| ==>
              AverageOf(worst[a]) < AverageOf(worst[b])
              || (AverageOf(worst[a]) == AverageOf(worst[b]) && picked[a] < picked[b])
    ensures forall k, j :: 0 <= k < |picked| && 0 <= j < |data| && j !in picked ==>
              AverageOf(data[picked[k]]) < AverageOf(data[j])
              || (AverageOf(data[picked[k]]) == AverageOf(data[j]) && picked[k] < j)
  {
    var keys := seq(|data|, k requires 0 <= k < |data| => AverageOf(data[k]));
    picked := SelectLowest(keys, WorstCount);
    worst := seq(|picked|, k requires 0 <= k < |picked| => data[picked[k]]);
  }
}

=== FILE: data.dfy ===
/** The conversion of scraped news items into headline records, from
    `utils/data_utils.py`. */
module DataUtils {
  import opened Wrappers
  import opened Times
  import opened TimeFormat
  import opened Schedule
  import opened Records
  import opened FinvizUtils

  /** The text a headline's publish instant is parsed from. */
  function StampText(item: NewsItem): string {
    item.date + " " + item.time
  }

  predicate Unparseable(item: NewsItem) {
    ParseDateTime(StampText(item)).None?
  }

  /** The headline record of one news item: its parsed instant, headline and
      url; the source is dropped. `None` where strptime raises. */
  function ToHeadline(item: NewsItem): (r: Option<Headline>)
    ensures r.None? <==> Unparseable(item)
    ensures r.Some? ==> Some(r.value.publishTime) == ParseDateTime(StampText(item))
    ensures r.Some? ==> r.value.headline == item.headline && r.value.url == item.url
  {
    match ParseDateTime(StampText(item))
    case None => None
    case Some(t) => Some(Headline(t, item.headline, item.url))
  }

  /** The headline records of a list of news items, one per item in the same
      order; `None` (the call raises) when some item's date and time do not parse. */
  function GetHeadlines(items: seq<NewsItem>): (r: Option<seq<Headline>>)
    ensures r.Some? ==> |r.value| == |items|
    ensures r.Some? ==> forall k :: 0 <= k < |items| ==> ToHeadline(items[k]) == Some(r.value[k])
    ensures r.None? ==> exists k :: 0 <= k < |items| && Unparseable(items[k])
  {
    if |items| == 0 then Some([])
    else
      match ToHeadline(items[0])
      case None => None
      case Some(h) =>
        match GetHeadlines(items[1..])
        case None =>
          assert exists k :: 0 <= k < |items[1..]| && Unparseable(items[1..][k]);
          var k :| 0 <= k < |items[1..]| && Unparseable(items[1..][k]);
          assert Unparseable(items[k + 1]);
          None
        case Some(rest) => Some([h] + rest)
  }

  /** Scraped news always converts, and each record carries back the scanned
      instant to the minute, the headline and the url. */
  lemma HeadlinesOfScannedNews(stamped: seq<Stamped>)
    requires forall k :: 0 <= k < |stamped| ==> ScrapedInstant(stamped[k].at)
    ensures GetHeadlines(seq(|stamped|, k requires 0 <= k < |stamped| => ToNewsItem(stamped[k])))
            == Some(seq(|stamped|, k requires 0 <= k < |stamped| =>
                      Headline(stamped[k].at, stamped[k].link.headline, stamped[k].link.url)))
  {
    var items := seq(|stamped|, k requires 0 <= k < |stamped| => ToNewsItem(stamped[k]));
    var expected := seq(|stamped|, k requires 0 <= k < |stamped| =>
                      Headline(stamped[k].at, stamped[k].link.headline, stamped[k].link.url));
    forall k | 0 <= k < |items|
      ensures ToHeadline(items[k]) == Some(expected[k])
    {
      assert ParseDateTime(StampText(items[k])) == Some(stamped[k].at);
    }
    var r := GetHeadlines(items);
    assert r.value == expected;
  }

  /** `get_headlines` over one page: the page's news since the period start
      `start`, as headline records; `None` when reading the page raised. As
      written the start is `MostRecentPeriodStart(cal, now)`; the corrected
      program passes `PeriodStartCorrected(cal, now)`. */
  function FetchHeadlines(page: Page, start: Option<DateTime>): (r: Option<seq<Headline>>)
    ensures page.NoNewsTable? || start.None? ==> r == Some([])
    ensures r.Some? && page.NewsTable? ==> |r.value| <= |page.rows|
    ensures r.Some? ==> forall k :: 0 <= k < |r.value| ==> AtOrBefore(start.value, r.value[k].publishTime)
  {
    match GetNews(page, start)
    case Failure(_) => None
    case Success(items) => GetHeadlines(items)
  }

  /** Reading a page fails only where the row scan raises: scraped items
      always convert, each headline record carrying its row's instant,
      headline text and url, in row order. */
  lemma FetchHeadlinesIsScan(rows: seq<Row>, start: DateTime)
    ensures var scan := ScanRows(rows, start, None);
            && (FetchHeadlines(NewsTable(rows), Some(start)).None? <==> scan.Failure?)
            && (scan.Success? ==>
                  FetchHeadlines(NewsTable(rows), Some(start)).value
                  == seq(|scan.value|, k requires 0 <= k < |scan.value| =>
                       Headline(scan.value[k].at, scan.value[k].link.headline, scan.value[k].link.url)))
  {
    var scan := ScanRows(rows, start, None);
    if scan.Success? {
      HeadlinesOfScannedNews(scan.value);
    }
  }

  /** As written, a run before the day's open fetches no headlines from a
      table whose newest row is already published. */
  lemma PreMarketFetch(cal: Calendar, now: DateTime, rows: seq<Row>)
    requires WellFormed(cal) && ValidDate(now.date)
    requires cal(now.date).Some? && Before(now, cal(now.date).value.open)
    requires |rows| > 0 && ParseStamp(rows[0].stamp, None).Success?
    requires AtOrBefore(ParseStamp(rows[0].stamp, None).value, now)
    ensures FetchHeadlines(NewsTable(rows), MostRecentPeriodStart(cal, now)) == Some([])
  {
    PreMarketRunFindsNoNews(cal, now, rows);
  }

  /** Preprocessing is the identity: nothing is removed, reordered or changed. */
  function PreprocessHeadlines(hs: seq<Headline>): (r: seq<Headline>)
    ensures r == hs
  {
    hs
  }
}

=== FILE: finviz.dfy ===
/** The collection-window start and the news-row scan of
    `utils/finviz_utils.py`. The page download and HTML parsing are outside
    the model: a page is either without a news table or a sequence of rows,
    each row a timestamp cell and an optional headline link. */
module FinvizUtils {
  import opened Wrappers
  import opened Times
  import opened TimeFormat
  import opened Schedule
  import opened Records

  // ---------------------------------------------------------------------
  // Start of the most recent trading period
  // ---------------------------------------------------------------------

  /** How many calendar days back the search for a previous session goes. */
  const LookBackDays: nat := 10

  /** Today's open while today's session has not closed (even before it
      opens), today's close once it has, and on a non-trading day the close of
      the nearest trading day at most ten calendar days back. */
  function MostRecentPeriodStart(cal: Calendar, now: DateTime): (r: Option<DateTime>)
    ensures cal(now.date).Some? ==> r.Some? && (r.value == cal(now.date).value.open || r.value == cal(now.date).value.close)
    ensures cal(now.date).Some? && Before(cal(now.date).value.close, now) ==> r == Some(cal(now.date).value.close)
    ensures r.None? ==> cal(now.date).None?
  {
    match cal(now.date)
    case Some(s) => if AtOrBefore(now, s.close) then Some(s.open) else Some(s.close)
    case None => PreviousClose(cal, now.date, 1)
  }

  /** The close of the first trading day among `k`, `k + 1`, ..., 10 days
      before `today`; `None` when none of them trades. */
  function PreviousClose(cal: Calendar, today: Date, k: nat): (r: Option<DateTime>)
    requires 1 <= k
    ensures r.None? ==> forall j :: k <= j <= LookBackDays ==> cal(DaysBefore(today, j)).None?
    ensures (forall j :: k <= j <= LookBackDays ==> cal(DaysBefore(today, j)).None?) ==> r.None?
    decreases LookBackDays + 1 - k
  {
    if k > LookBackDays then None
    else
      match cal(DaysBefore(today, k))
      case Some(s) => Some(s.close)
      case None => PreviousClose(cal, today, k + 1)
  }

  /** A found previous close belongs to the nearest trading day in range. */
  lemma {:induction false} PreviousCloseIsNearest(cal: Calendar, today: Date, k: nat) returns (j: nat)
    requires 1 <= k && PreviousClose(cal, today, k).Some?
    ensures k <= j <= LookBackDays
    ensures cal(DaysBefore(today, j)).Some?
    ensures PreviousClose(cal, today, k) == Some(cal(DaysBefore(today, j)).value.close)
    ensures forall i :: k <= i < j ==> cal(DaysBefore(today, i)).None?
    decreases LookBackDays + 1 - k
  {
    if cal(DaysBefore(today, k)).Some? {
      j := k;
    } else {
      j := PreviousCloseIsNearest(cal, today, k + 1);
    }
  }

  /** The period start is `None` exactly when neither today nor any of the
      ten previous calendar days trades. */
  lemma PeriodStartNoneIff(cal: Calendar, now: DateTime)
    ensures MostRecentPeriodStart(cal, now).None? ==>
              forall j :: 0 <= j <= LookBackDays ==> cal(DaysBefore(now.date, j)).None?
    ensures (forall j :: 0 <= j <= LookBackDays ==> cal(DaysBefore(now.date, j)).None?) ==>
              MostRecentPeriodStart(cal, now).None?
  {
    assert DaysBefore(now.date, 0) == now.date;
  }

  /** On a trading day the start is the day's own open until the close has
      passed (including before the open) and the day's close afterwards; on
      any other day it is the close of the nearest earlier trading day, one to
      ten days back. */
  lemma PeriodStartCases(cal: Calendar, now: DateTime) returns (back: nat)
    requires MostRecentPeriodStart(cal, now).Some?
    ensures cal(now.date).Some? ==>
              && back == 0
              && MostRecentPeriodStart(cal, now).value ==
                   (if AtOrBefore(now, cal(now.date).value.close) then cal(now.date).value.open else cal(now.date).value.close)
    ensures cal(now.date).None? ==>
              && 1 <= back <= LookBackDays
              && cal(DaysBefore(now.date, back)).Some?
              && MostRecentPeriodStart(cal, now).value == cal(DaysBefore(now.date, back)).value.close
              && forall i :: 1 <= i < back ==> cal(DaysBefore(now.date, i)).None?
  {
    if cal(now.date).Some? {
      back := 0;
    } else {
      back := PreviousCloseIsNearest(cal, now.date, 1);
    }
  }

  /** The start as evidently intended: the most recent session boundary
      already reached. Before today's open that is the previous trading day's
      close, not today's open. */
  function PeriodStartCorrected(cal: Calendar, now: DateTime): Option<DateTime> {
    match cal(now.date)
    case Some(s) =>
      if Before(s.close, now) then Some(s.close)
      else if AtOrBefore(s.open, now) then Some(s.open)
      else PreviousClose(cal, now.date, 1)
    case None => PreviousClose(cal, now.date, 1)
  }

  /** The corrected start is never in the future. */
  lemma PeriodStartCorrectedNotAfterNow(cal: Calendar, now: DateTime)
    requires WellFormed(cal) && ValidDateTime(now)
    requires PeriodStartCorrected(cal, now).Some?
    ensures AtOrBefore(PeriodStartCorrected(cal, now).value, now)
  {
    var today := now.date;
    var r := PeriodStartCorrected(cal, now).value;
    if cal(today).None? || Before(now, cal(today).value.open) {
      var j := PreviousCloseIsNearest(cal, today, 1);
      var d := DaysBefore(today, j);
      assert ValidDate(d) && DateBefore(d, today);
      assert r == cal(d).value.close && r.date == d;
    }
  }

  /** The facts a well-formed calendar gives about one trading day. */
  predicate SessionOn(cal: Calendar, d: Date) {
    && cal(d).Some?
    && cal(d).value.open.date == d
    && cal(d).value.close.date == d
    && Before(cal(d).value.open, cal(d).value.close)
  }

  lemma WellFormedSession(cal: Calendar, d: Date)
    requires WellFormed(cal) && ValidDate(d) && cal(d).Some?
    ensures SessionOn(cal, d)
  {
  }

  /** At or after today's open, every boundary already passed is at or
      before today's open or close, whichever the corrected start is. */
  lemma LatestOnOpenDay(cal: Calendar, now: DateTime, day: Date, b: DateTime)
    requires SessionOn(cal, now.date) && AtOrBefore(cal(now.date).value.open, now)
    requires SessionOn(cal, day) && (day == now.date || DateBefore(day, now.date))
    requires b == cal(day).value.open || b == cal(day).value.close
    requires Before(b, now)
    ensures PeriodStartCorrected(cal, now).Some?
    ensures AtOrBefore(b, PeriodStartCorrected(cal, now).value)
  {
  }

  /** Before today's open, or on a non-trading day, every boundary of an
      earlier trading day in range is at or before the nearest previous close. */
  lemma LatestBeforeOpen(cal: Calendar, now: DateTime, j: nat, b: DateTime)
    requires WellFormed(cal) && ValidDate(now.date)
    requires cal(now.date).None? || Before(now, cal(now.date).value.open)
    requires 1 <= j <= LookBackDays && SessionOn(cal, DaysBefore(now.date, j))
    requires b == cal(DaysBefore(now.date, j)).value.open || b == cal(DaysBefore(now.date, j)).value.close
    ensures PeriodStartCorrected(cal, now).Some?
    ensures AtOrBefore(b, PeriodStartCorrected(cal, now).value)
  {
    var today := now.date;
    assert PeriodStartCorrected(cal, now) == PreviousClose(cal, today, 1);
    var i := PreviousCloseIsNearest(cal, today, 1);
    WellFormedSession(cal, DaysBefore(today, i));
    assert i <= j;
    NoLaterThanNearerClose(cal, today, i, j, b);
  }

  /** A boundary of day `j` back is at or before the close of a trading day
      `i <= j` back. */
  lemma NoLaterThanNearerClose(cal: Calendar, today: Date, i: nat, j: nat, b: DateTime)
    requires ValidDate(today) && i <= j
    requires SessionOn(cal, DaysBefore(today, i)) && SessionOn(cal, DaysBefore(today, j))
    requires b == cal(DaysBefore(today, j)).value.open || b == cal(DaysBefore(today, j)).value.close
    ensures AtOrBefore(b, cal(DaysBefore(today, i)).value.close)
  {
    if i < j {
      DaysBeforeMonotone(today, i, j);
    }
  }

  /** The corrected start is the latest session boundary already passed:
      every open or close of today or the ten days before that lies strictly
      before `now` is at or before it. (At `now` equal to the close the day's
      open is still the start, as in the source, hence "strictly".) */
  lemma PeriodStartCorrectedIsLatest(cal: Calendar, now: DateTime, j: nat, b: DateTime)
    requires WellFormed(cal) && ValidDateTime(now)
    requires j <= LookBackDays && cal(DaysBefore(now.date, j)).Some?
    requires b == cal(DaysBefore(now.date, j)).value.open || b == cal(DaysBefore(now.date, j)).value.close
    requires Before(b, now)
    ensures PeriodStartCorrected(cal, now).Some?
    ensures AtOrBefore(b, PeriodStartCorrected(cal, now).value)
  {
    var today := now.date;
    var day := DaysBefore(today, j);
    WellFormedSession(cal, day);
    if cal(today).Some? {
      WellFormedSession(cal, today);
    }
    if cal(today).Some? && AtOrBefore(cal(today).value.open, now) {
      LatestOnOpenDay(cal, now, day, b);
    } else {
      LatestBeforeOpen(cal, now, j, b);
    }
  }

  /** The corrected start is always a session boundary: the open or close of
      today or of a trading day at most ten days back. */
  lemma PeriodStartCorrectedIsBoundary(cal: Calendar, now: DateTime) returns (j: nat)
    requires PeriodStartCorrected(cal, now).Some?
    ensures j <= LookBackDays && cal(DaysBefore(now.date, j)).Some?
    ensures PeriodStartCorrected(cal, now).value == cal(DaysBefore(now.date, j)).value.open
            || PeriodStartCorrected(cal, now).value == cal(DaysBefore(now.date, j)).value.close
  {
    assert DaysBefore(now.date, 0) == now.date;
    if cal(now.date).Some? && (Before(cal(now.date).value.close, now) || AtOrBefore(cal(now.date).value.open, now)) {
      j := 0;
    } else {
      assert PeriodStartCorrected(cal, now) == PreviousClose(cal, now.date, 1);
      j := PreviousCloseIsNearest(cal, now.date, 1);
    }
  }

  /** The correction changes only runs made before the day's open. */
  lemma PeriodStartCorrectedAgrees(cal: Calendar, now: DateTime)
    requires WellFormed(cal) && ValidDate(now.date)
    requires cal(now.date).Some? ==> AtOrBefore(cal(now.date).value.open, now)
    ensures PeriodStartCorrected(cal, now) == MostRecentPeriodStart(cal, now)
  {
  }

  // ---------------------------------------------------------------------
  // Timestamp cells
  // ---------------------------------------------------------------------

  /** A 12-hour clock reading, `%I:%M%p`. */
  datatype Clock = Clock(hour12: int, minute: int, pm: bool)

  /** A row's timestamp cell: a full `%b-%d-%y %I:%M%p` stamp (text longer
      than eight characters) or a bare `%I:%M%p` time that inherits the date
      of an earlier row. The month is the number of the `%b` abbreviation. */
  datatype RawStamp =
    | FullStamp(month: int, day: int, yy: int, clock: Clock)
    | TimeOnly(clock: Clock)

  /** Why reading the rows raised instead of returning. */
  datatype ScanError =
    | MalformedStamp   // strptime rejects the cell
    | NoDateYet        // a bare time before any dated row: there is no date to borrow

  predicate ValidClock(c: Clock) {
    1 <= c.hour12 <= 12 && 0 <= c.minute <= 59
  }

  /** `%I` with `%p`: 12 AM is hour 0, 12 PM is hour 12. */
  function Hour24(c: Clock): (h: int)
    requires ValidClock(c)
    ensures 0 <= h < 24
    ensures c.pm <==> h >= 12
  {
    if c.pm then (if c.hour12 == 12 then 12 else c.hour12 + 12)
    else (if c.hour12 == 12 then 0 else c.hour12)
  }

  /** The 12-hour reading of a 24-hour time; inverse of `Hour24`. */
  function ClockOf(h: int, minute: int): (c: Clock)
    requires 0 <= h < 24 && 0 <= minute <= 59
    ensures ValidClock(c) && Hour24(c) == h && c.minute == minute
  {
    Clock(if h % 12 == 0 then 12 else h % 12, minute, h >= 12)
  }

  lemma ClockOfHour24(c: Clock)
    requires ValidClock(c)
    ensures ClockOf(Hour24(c), c.minute) == c
  {
  }

  /** `%y`: 69-99 are 1969-1999, 00-68 are 2000-2068. */
  function CenturyYear(yy: int): (y: int)
    requires 0 <= yy <= 99
    ensures 1969 <= y <= 2068 && y % 100 == yy
  {
    if yy <= 68 then 2000 + yy else 1900 + yy
  }

  /** Years a scraped stamp can carry. */
  predicate ScraperYear(y: int) {
    1969 <= y <= 2068
  }

  predicate ScrapedInstant(t: DateTime) {
    ValidDateTime(t) && ScraperYear(t.date.year)
  }

  predicate CarriedDateOk(date: Option<Date>) {
    date.Some? ==> ValidDate(date.value) && ScraperYear(date.value.year)
  }

  /** The instant of a cell, given the date of the last dated row seen. */
  function ParseStamp(s: RawStamp, date: Option<Date>): (r: Result<DateTime, ScanError>)
    ensures r.Success? && CarriedDateOk(date) ==> ScrapedInstant(r.value)
    ensures r.Success? ==> ValidClock(s.clock) && r.value.hour == Hour24(s.clock) && r.value.minute == s.clock.minute
    ensures s.TimeOnly? && r.Success? ==> date == Some(r.value.date)
    ensures s.FullStamp? && r.Success? ==> 0 <= s.yy <= 99 && r.value.date == Date(CenturyYear(s.yy), s.month, s.day)
    ensures r == Failure(NoDateYet) <==> ValidClock(s.clock) && s.TimeOnly? && date.None?
    ensures r == Failure(MalformedStamp) <==>
              || !ValidClock(s.clock)
              || (s.FullStamp? && !(0 <= s.yy <= 99 && ValidDate(Date(CenturyYear(s.yy), s.month, s.day))))
  {
    if !ValidClock(s.clock) then Failure(MalformedStamp)
    else match s
      case FullStamp(month, day, yy, clock) =>
        if !(0 <= yy <= 99) then Failure(MalformedStamp)
        else
          var d := Date(CenturyYear(yy), month, day);
          if !ValidDate(d) then Failure(MalformedStamp)
          else Success(DateTime(d, Hour24(clock), clock.minute))
      case TimeOnly(clock) =>
        match date
        case None => Failure(NoDateYet)
        case Some(d) => Success(DateTime(d, Hour24(clock), clock.minute))
  }

  /** The date carried to the next row: a dated row sets it, a bare time keeps it. */
  function Carry(s: RawStamp, at: DateTime, date: Option<Date>): Option<Date> {
    if s.FullStamp? then Some(at.date) else date
  }

  // ---------------------------------------------------------------------
  // The row scan
  // ---------------------------------------------------------------------

  datatype Link = Link(headline: string, url: string, sourceText: string)

  /** One row of the news table: timestamp cell and headline link, if any. */
  datatype Row = Row(stamp: RawStamp, link: Option<Link>)

  datatype Page = NoNewsTable | NewsTable(rows: seq<Row>)

  /** A linked row that passed the age test, with its instant. */
  datatype Stamped = Stamped(at: DateTime, link: Link)

  /** The row's contribution to the output: itself if it has a link. */
  function Emit(row: Row, at: DateTime): seq<Stamped> {
    if row.link.Some? then [Stamped(at, row.link.value)] else []
  }

  /** Reads rows newest first, carrying dates forward, stops at the first row
      older than `start` and keeps the linked rows before it. */
  function ScanRows(rows: seq<Row>, start: DateTime, date: Option<Date>): (r: Result<seq<Stamped>, ScanError>)
    ensures r.Success? ==> |r.value| <= |rows|
    ensures r.Success? ==> forall k :: 0 <= k < |r.value| ==> AtOrBefore(start, r.value[k].at)
    ensures r.Success? && CarriedDateOk(date) ==> forall k :: 0 <= k < |r.value| ==> ScrapedInstant(r.value[k].at)
    decreases |rows|
  {
    if |rows| == 0 then Success([])
    else
      match ParseStamp(rows[0].stamp, date)
      case Failure(e) => Failure(e)
      case Success(at) =>
        if Before(at, start) then Success([])
        else
          match ScanRows(rows[1..], start, Carry(rows[0].stamp, at, date))
          case Failure(e) => Failure(e)
          case Success(rest) => Success(Emit(rows[0], at) + rest)
  }

  /** Every row's instant, resolved eagerly (the reference the scan is compared with). */
  function ResolveStamps(rows: seq<Row>, date: Option<Date>): (r: Result<seq<DateTime>, ScanError>)
    ensures r.Success? ==> |r.value| == |rows|
    ensures r.Success? && |rows| > 0 && rows[0].stamp.TimeOnly? ==> date == Some(r.value[0].date)
    ensures r.Success? ==> forall i :: 0 < i < |rows| && rows[i].stamp.TimeOnly? ==> r.value[i].date == r.value[i - 1].date
    ensures r.Success? ==> forall i :: 0 <= i < |rows| ==>
              && ValidClock(rows[i].stamp.clock)
              && r.value[i].hour == Hour24(rows[i].stamp.clock)
              && r.value[i].minute == rows[i].stamp.clock.minute
    ensures r.Success? ==> forall i :: 0 <= i < |rows| && rows[i].stamp.FullStamp? ==>
              && 0 <= rows[i].stamp.yy <= 99
              && r.value[i].date == Date(CenturyYear(rows[i].stamp.yy), rows[i].stamp.month, rows[i].stamp.day)
    decreases |rows|
  {
    if |rows| == 0 then Success([])
    else
      match ParseStamp(rows[0].stamp, date)
      case Failure(e) => Failure(e)
      case Success(at) =>
        match ResolveStamps(rows[1..], Carry(rows[0].stamp, at, date))
        case Failure(e) => Failure(e)
        case Success(rest) => Success([at] + rest)
  }

  /** The number of leading instants at or after `start`. */
  function CountRecent(ts: seq<DateTime>, start: DateTime): (n: nat)
    ensures n <= |ts|
    ensures forall i :: 0 <= i < n ==> AtOrBefore(start, ts[i])
    ensures n < |ts| ==> Before(ts[n], start)
  {
    if |ts| == 0 || Before(ts[0], start) then 0 else 1 + CountRecent(ts[1..], start)
  }

  /** The linked rows among `rows`, each with its instant. */
  function Linked(rows: seq<Row>, ts: seq<DateTime>): (r: seq<Stamped>)
    requires |rows| == |ts|
    ensures |r| <= |rows|
  {
    if |rows| == 0 then [] else Emit(rows[0], ts[0]) + Linked(rows[1..], ts[1..])
  }

  /** When every cell resolves, the scan is "cut at the first row older than
      the start, then keep the linked rows": no row after the first old one is
      emitted, however recent it is. */
  lemma {:induction false} ScanIsCutThenFilter(rows: seq<Row>, start: DateTime, date: Option<Date>)
    requires ResolveStamps(rows, date).Success?
    ensures var ts := ResolveStamps(rows, date).value;
            var n := CountRecent(ts, start);
            ScanRows(rows, start, date) == Success(Linked(rows[..n], ts[..n]))
    decreases |rows|
  {
    var ts := ResolveStamps(rows, date).value;
    if |rows| > 0 {
      var at := ParseStamp(rows[0].stamp, date).value;
      assert ts[0] == at;
      if !Before(at, start) {
        var carried := Carry(rows[0].stamp, at, date);
        assert ts[1..] == ResolveStamps(rows[1..], carried).value;
        ScanIsCutThenFilter(rows[1..], start, carried);
        LinkedOfCut(rows, ts, CountRecent(ts, start));
      }
    }
  }

  /** Cutting after a leading row keeps that row in front of the cut tail. */
  lemma LinkedOfCut(rows: seq<Row>, ts: seq<DateTime>, n: nat)
    requires |rows| == |ts| && 0 < n <= |rows|
    ensures Linked(rows[..n], ts[..n]) == Emit(rows[0], ts[0]) + Linked(rows[1..][..n - 1], ts[1..][..n - 1])
  {
    assert rows[..n][1..] == rows[1..][..n - 1];
    assert ts[..n][1..] == ts[1..][..n - 1];
  }

  /** The scan raises only where resolving the rows raises, with the same error. */
  lemma {:induction false} ScanFailureIsResolveFailure(rows: seq<Row>, start: DateTime, date: Option<Date>)
    requires ScanRows(rows, start, date).Failure?
    ensures ResolveStamps(rows, date).Failure?
    ensures ResolveStamps(rows, date).error == ScanRows(rows, start, date).error
    decreases |rows|
  {
    var p := ParseStamp(rows[0].stamp, date);
    if p.Success? {
      ScanFailureIsResolveFailure(rows[1..], start, Carry(rows[0].stamp, p.value, date));
    }
  }

  /** A cell that cannot be resolved before the cut makes the scan raise: if
      the first `n` rows resolve and are all recent, and row `n` does not
      resolve (a malformed cell, or a bare time with no date before it), the
      scan fails. */
  lemma {:induction false} BadRowBeforeCutRaises(rows: seq<Row>, n: nat, start: DateTime, date: Option<Date>)
    requires n < |rows|
    requires ResolveStamps(rows[..n], date).Success?
    requires CountRecent(ResolveStamps(rows[..n], date).value, start) == n
    requires ResolveStamps(rows[..n + 1], date).Failure?
    ensures ScanRows(rows, start, date).Failure?
    decreases n
  {
    var p := ParseStamp(rows[0].stamp, date);
    assert rows[..n + 1][0] == rows[0];
    if n == 0 {
      assert rows[..1][1..] == [];
    } else {
      assert rows[..n][0] == rows[0];
      var at := p.value;
      var carried := Carry(rows[0].stamp, at, date);
      var ts := ResolveStamps(rows[..n], date).value;
      assert rows[..n][1..] == rows[1..][..n - 1];
      assert rows[..n + 1][1..] == rows[1..][..n];
      assert ts[0] == at;
      assert ts[1..] == ResolveStamps(rows[1..][..n - 1], carried).value;
      BadRowBeforeCutRaises(rows[1..], n - 1, start, carried);
    }
  }

  /** Once the rows hold one older than the start, whatever follows them is
      never read: appending rows, even malformed ones, changes nothing. */
  lemma {:induction false} ScanStopsAtOldRow(rows: seq<Row>, more: seq<Row>, start: DateTime, date: Option<Date>)
    requires ResolveStamps(rows, date).Success?
    requires CountRecent(ResolveStamps(rows, date).value, start) < |rows|
    ensures ScanRows(rows + more, start, date) == ScanRows(rows, start, date)
    decreases |rows|
  {
    var ts := ResolveStamps(rows, date).value;
    var at := ParseStamp(rows[0].stamp, date).value;
    assert (rows + more)[0] == rows[0];
    assert ts[0] == at;
    if !Before(at, start) {
      var carried := Carry(rows[0].stamp, at, date);
      assert (rows + more)[1..] == rows[1..] + more;
      assert ts[1..] == ResolveStamps(rows[1..], carried).value;
      ScanStopsAtOldRow(rows[1..], more, start, carried);
    }
  }

  // ---------------------------------------------------------------------
  // News items
  // ---------------------------------------------------------------------

  /** `text[1:-1]`: the source name without the parentheses around it. */
  function StripEnds(text: string): (r: string)
    ensures |text| >= 2 ==> text == [text[0]] + r + [text[|text| - 1]]
    ensures |text| < 2 ==> r == ""
  {
    if |text| >= 2 then text[1..|text| - 1] else ""
  }

  /** A news item as the scraper reports it: date and time formatted, link
      fields copied, source stripped. */
  function ToNewsItem(s: Stamped): (item: NewsItem)
    requires ScrapedInstant(s.at)
    ensures ParseDateTime(item.date + " " + item.time) == Some(s.at)
    ensures item.headline == s.link.headline && item.url == s.link.url
    ensures item.source == StripEnds(s.link.sourceText)
  {
    var item := NewsItem(FormatDate(s.at.date), FormatClock(s.at), s.link.headline, s.link.url, StripEnds(s.link.sourceText));
    ParseOfFormat(s.at);
    item
  }

  /** The news of one page: nothing without a news table or without a period
      start; otherwise the scanned items, or the error the scan raised. */
  function GetNews(page: Page, start: Option<DateTime>): (r: Result<seq<NewsItem>, ScanError>)
    ensures page.NoNewsTable? || start.None? ==> r == Success([])
    ensures r.Success? && page.NewsTable? ==> |r.value| <= |page.rows|
    ensures r.Success? ==> forall k :: 0 <= k < |r.value| ==>
              && ParseDateTime(r.value[k].date + " " + r.value[k].time).Some?
              && AtOrBefore(start.value, ParseDateTime(r.value[k].date + " " + r.value[k].time).value)
    ensures page.NewsTable? && start.Some? ==>
              (r.Failure? <==> ScanRows(page.rows, start.value, None).Failure?)
    ensures page.NewsTable? && start.Some? && r.Success? ==>
              var scanned := ScanRows(page.rows, start.value, None).value;
              && |r.value| == |scanned|
              && forall k :: 0 <= k < |scanned| ==>
                   && ParseDateTime(r.value[k].date + " " + r.value[k].time) == Some(scanned[k].at)
                   && r.value[k].headline == scanned[k].link.headline
                   && r.value[k].url == scanned[k].link.url
                   && r.value[k].source == StripEnds(scanned[k].link.sourceText)
  {
    match page
    case NoNewsTable => Success([])
    case NewsTable(rows) =>
      match start
      case None => Success([])
      case Some(t) =>
        match ScanRows(rows, t, None)
        case Failure(e) => Failure(e)
        case Success(stamped) =>
          Success(seq(|stamped|, k requires 0 <= k < |stamped| => ToNewsItem(stamped[k])))
  }

  /** As written, a run before the day's open takes the still-future open as
      the period start, so every row published by `now` counts as too old and
      the page yields no news at all. */
  lemma PreMarketRunFindsNoNews(cal: Calendar, now: DateTime, rows: seq<Row>)
    requires WellFormed(cal) && ValidDate(now.date)
    requires cal(now.date).Some? && Before(now, cal(now.date).value.open)
    requires |rows| > 0 && ParseStamp(rows[0].stamp, None).Success?
    requires AtOrBefore(ParseStamp(rows[0].stamp, None).value, now)
    ensures MostRecentPeriodStart(cal, now) == Some(cal(now.date).value.open)
    ensures Before(now, MostRecentPeriodStart(cal, now).value)
    ensures GetNews(NewsTable(rows), MostRecentPeriodStart(cal, now)) == Success([])
  {
    var open := cal(now.date).value.open;
    var at := ParseStamp(rows[0].stamp, None).value;
    assert Before(at, open);
  }
}

=== FILE: gpt.dfy ===
/** The prompt template and the response classifier of `utils/gpt_utils.py`.
    The call to the language model itself is not modelled. */
module GptUtils {
  import opened Records

  // ---------------------------------------------------------------------
  // Text helpers
  // ---------------------------------------------------------------------

  /** `message.split(' ', 1)[0]`: everything before the first space. */
  function FirstWord(s: string): (w: string)
    ensures w <= s
    ensures ' ' !in w
    ensures |w| < |s| ==> s[|w|] == ' '
  {
    if |s| == 0 || s[0] == ' ' then "" else [s[0]] + FirstWord(s[1..])
  }

  /** Upper case of one character (ASCII letters; everything else unchanged). */
  function UpperChar(c: char): (u: char)
    ensures u == ' ' <==> c == ' '
  {
    if 'a' <= c <= 'z' then (c as int - 32) as char else c
  }

  /** `str.upper()` on ASCII letters. */
  function Upper(s: string): (u: string)
    ensures |u| == |s|
    ensures forall i :: 0 <= i < |s| ==> u[i] == UpperChar(s[i])
  {
    seq(|s|, i requires 0 <= i < |s| => UpperChar(s[i]))
  }

  /** `p in s`: `p` occurs in `s` as a contiguous piece. */
  predicate Contains(s: string, p: string)
    decreases |s|
  {
    p <= s || (|s| > 0 && Contains(s[1..], p))
  }

  /** `p` starts at position `i` of `s`. */
  predicate OccursAt(s: string, p: string, i: int) {
    0 <= i <= |s| - |p| && s[i..i + |p|] == p
  }

  /** `Contains` agrees with "there is a position where `p` starts". */
  lemma {:induction false} ContainsIffOccurs(s: string, p: string)
    ensures Contains(s, p) ==> exists i :: OccursAt(s, p, i)
    ensures (exists i :: OccursAt(s, p, i)) ==> Contains(s, p)
    decreases |s|
  {
    if p <= s {
      assert OccursAt(s, p, 0);
    } else if |s| > 0 {
      ContainsIffOccurs(s[1..], p);
      if Contains(s[1..], p) {
        var i :| OccursAt(s[1..], p, i);
        assert s[i + 1..i + 1 + |p|] == s[1..][i..i + |p|];
        assert OccursAt(s, p, i + 1);
      }
      if exists i :: OccursAt(s, p, i) {
        var i :| OccursAt(s, p, i);
        assert i != 0;
        assert s[1..][i - 1..i - 1 + |p|] == s[i..i + |p|];
        assert OccursAt(s[1..], p, i - 1);
      }
    } else {
      assert forall i :: !OccursAt(s, p, i);
    }
  }

  /** A piece whose first character is absent from `s` does not occur in it. */
  lemma {:induction false} NotContainedWithoutFirstChar(s: string, p: string)
    requires |p| > 0 && p[0] !in s
    ensures !Contains(s, p)
    decreases |s|
  {
    if |s| > 0 {
      assert s[0] != p[0];
      NotContainedWithoutFirstChar(s[1..], p);
    }
  }

  // ---------------------------------------------------------------------
  // Response classifier
  // ---------------------------------------------------------------------

  /** The score of a model response, read from its first word alone, upper
      cased: "YES" anywhere in it wins, then "UNKNOWN" (neutral, though it
      contains "NO"), then "NO"; anything else is neutral too. */
  function ClassifyResponse(message: string): (score: int)
    ensures -1 <= score <= 1
    ensures score == 1 <==> Contains(Upper(FirstWord(message)), "YES")
    ensures score == -1 <==>
              && !Contains(Upper(FirstWord(message)), "YES")
              && !Contains(Upper(FirstWord(message)), "UNKNOWN")
              && Contains(Upper(FirstWord(message)), "NO")
  {
    var word := Upper(FirstWord(message));
    if Contains(word, "YES") then 1
    else if Contains(word, "UNKNOWN") then 0
    else if Contains(word, "NO") then -1
    else 0
  }

  lemma {:induction false} FirstWordOfJoin(w: string, rest: string)
    requires ' ' !in w
    ensures FirstWord(w + " " + rest) == w
    decreases |w|
  {
    if |w| > 0 {
      assert (w + " " + rest)[1..] == w[1..] + " " + rest;
      FirstWordOfJoin(w[1..], rest);
    }
  }

  lemma {:induction false} FirstWordOfSpaceless(w: string)
    requires ' ' !in w
    ensures FirstWord(w) == w
    decreases |w|
  {
    if |w| > 0 {
      assert w[0] in w;
      FirstWordOfSpaceless(w[1..]);
    }
  }

  /** Text after the first space never changes the score. */
  lemma ClassifyIgnoresRest(w: string, rest: string)
    requires ' ' !in w
    ensures ClassifyResponse(w + " " + rest) == ClassifyResponse(w)
  {
    FirstWordOfJoin(w, rest);
    FirstWordOfSpaceless(w);
  }

  lemma {:induction false} FirstWordOfUpper(s: string)
    ensures FirstWord(Upper(s)) == Upper(FirstWord(s))
    decreases |s|
  {
    if |s| > 0 && s[0] != ' ' {
      assert Upper(s)[1..] == Upper(s[1..]);
      FirstWordOfUpper(s[1..]);
      assert Upper(FirstWord(s)) == [UpperChar(s[0])] + Upper(FirstWord(s[1..]));
    }
  }

  /** Case does not matter: responses that agree up to upper casing score alike. */
  lemma ClassifyIsCaseInsensitive(m1: string, m2: string)
    requires Upper(m1) == Upper(m2)
    ensures ClassifyResponse(m1) == ClassifyResponse(m2)
  {
    FirstWordOfUpper(m1);
    FirstWordOfUpper(m2);
  }

  // The precedence the order of the tests gives, on four responses.

  /** "UNKNOWN" is neutral although it contains "NO". */
  lemma ClassifyUnknown()
    ensures ClassifyResponse("UNKNOWN") == 0
  {
    FirstWordOfSpaceless("UNKNOWN");
    assert Upper("UNKNOWN") == "UNKNOWN";
    assert Contains("UNKNOWN", "UNKNOWN");
    NotContainedWithoutFirstChar("UNKNOWN", "YES");
  }

  /** "NOT" is negative. */
  lemma ClassifyNot()
    ensures ClassifyResponse("NOT") == -1
  {
    FirstWordOfSpaceless("NOT");
    assert Upper("NOT") == "NOT";
    assert Contains("NOT", "NO");
    NotContainedWithoutFirstChar("NOT", "YES");
    NotContainedWithoutFirstChar("NOT", "UNKNOWN");
  }

  /** The example "yesno" is positive: "YES" is tested before "NO". */
  lemma ClassifyYesNo()
    ensures ClassifyResponse("yesno") == 1
  {
    FirstWordOfSpaceless("yesno");
    assert Upper("yesno") == "YESNO";
    assert Contains("YESNO", "YES");
  }

  /** A leading space leaves an empty first word, which is neutral. */
  lemma ClassifyLeadingSpace()
    ensures ClassifyResponse(" YES") == 0
  {
    assert FirstWord(" YES") == "";
    assert Upper("") == "";
    NotContainedWithoutFirstChar("", "YES");
    NotContainedWithoutFirstChar("", "UNKNOWN");
    NotContainedWithoutFirstChar("", "NO");
  }

  // ---------------------------------------------------------------------
  // Prompt
  // ---------------------------------------------------------------------

  /** The fixed instructions sent as the system message. */
  const SystemContent: string :=
    "You are a financial expert with stock recommendation experience. Answer \U{201C}YES\U{201D} if good news, \U{201C}NO\U{201D} if bad news, or \U{201C}UNKNOWN\U{201D} if uncertain in the first line. Then elaborate with one short and concise sentence on the next line."

  const UserLead: string := "Is this headline good or bad for the stock price of "
  const UserMiddle: string := " in the short term? Headline: "

  /** The two-message prompt: the fixed system instructions, then a user
      question naming the company and quoting the headline. `term` is unused. */
  function GeneratePrompt(headline: string, companyName: string, term: string): (p: seq<Message>)
    ensures |p| == 2
    ensures p[0] == Message("system", SystemContent)
    ensures p[1].role == "user"
    ensures UserLead + companyName + UserMiddle <= p[1].content
    ensures p[1].content[|UserLead| + |companyName| + |UserMiddle|..] == headline
  {
    [Message("system", SystemContent), Message("user", UserLead + companyName + UserMiddle + headline)]
  }

  /** For one company the prompt determines the headline, and the term plays no part. */
  lemma PromptDeterminesHeadline(h1: string, h2: string, company: string, t1: string, t2: string)
    ensures GeneratePrompt(h1, company, t1) == GeneratePrompt(h2, company, t2) <==> h1 == h2
  {
    if GeneratePrompt(h1, company, t1) == GeneratePrompt(h2, company, t2) {
      var n := |UserLead| + |company| + |UserMiddle|;
      assert h1 == GeneratePrompt(h1, company, t1)[1].content[n..];
    }
  }
}

=== FILE: records.dfy ===
/** The records that flow between the scraper, the headline list, the
    language-model scorer and the per-ticker summary. */
module Records {
  import opened Wrappers
  import opened Times

  /** One news item as the scraper reports it: date and time as text. */
  datatype NewsItem = NewsItem(date: string, time: string, headline: string, url: string, source: string)

  /** One headline record: the publish instant parsed back from the scraper's text. */
  datatype Headline = Headline(publishTime: DateTime, headline: string, url: string)

  /** A chat message of a prompt. */
  datatype Message = Message(role: string, content: string)

  /** A scored headline: the model's response text and its score in {-1, 0, 1}. */
  datatype Record = Record(headline: Headline, response: string, score: int)

  /** The instants of the current trade period the run reads. */
  datatype TradePeriod = TradePeriod(headlineStart: Option<DateTime>, buyTime: Option<DateTime>, sellTime: Option<DateTime>)

  /** The per-ticker summary; `average` is `None` where the mean of no scores is undefined (NaN). */
  datatype TickerInfo = TickerInfo(records: seq<Record>, average: Option<real>, total: int,
                                   buyTime: Option<DateTime>, sellTime: Option<DateTime>)
}

=== FILE: schedule.dfy ===
/** The exchange calendar, seen as a function from a date to that day's
    session, `None` on a non-trading day. */
module Schedule {
  import opened Wrappers
  import opened Times

  datatype Session = Session(open: DateTime, close: DateTime)

  type Calendar = Date -> Option<Session>

  /** Every session lies within its own day and opens before it closes. */
  ghost predicate WellFormed(cal: Calendar) {
    forall d :: ValidDate(d) && cal(d).Some? ==>
      && cal(d).value.open.date == d
      && cal(d).value.close.date == d
      && ValidDateTime(cal(d).value.open)
      && ValidDateTime(cal(d).value.close)
      && Before(cal(d).value.open, cal(d).value.close)
  }
}

=== FILE: seqs.dfy ===
/** Order-preserving selection over sequences: the "loop that appends only
    some items" shape the bot uses for headlines, records and news rows. */
module Seqs {
  import opened Wrappers

  /** `idx` lists distinct positions below `n` in increasing order. */
  predicate IncreasingIndices(idx: seq<nat>, n: nat) {
    && (forall k :: 0 <= k < |idx| ==> idx[k] < n)
    && (forall a, b :: 0 <= a < b < |idx| ==> idx[a] < idx[b])
  }

  /** Every index moved up by one (positions in `xs[1..]` as positions in `xs`). */
  function ShiftUp(idx: seq<nat>): (r: seq<nat>)
    ensures |r| == |idx|
    ensures forall k :: 0 <= k < |idx| ==> r[k] == idx[k] + 1
  {
    if |idx| == 0 then [] else [idx[0] + 1] + ShiftUp(idx[1..])
  }

  lemma ShiftUpIncreasing(idx: seq<nat>, n: nat)
    requires IncreasingIndices(idx, n)
    ensures IncreasingIndices(ShiftUp(idx), n + 1)
    ensures IncreasingIndices([0] + ShiftUp(idx), n + 1)
    ensures forall i :: 1 <= i <= n && i !in ShiftUp(idx) ==> i - 1 !in idx
  {
    var s := ShiftUp(idx);
    forall i | 1 <= i <= n && i - 1 in idx
      ensures i in s
    {
      var k :| 0 <= k < |idx| && idx[k] == i - 1;
      assert s[k] == i;
    }
  }

  /** Applies `f` to every item in order and keeps the `Some` results. */
  function FilterMap<T, U>(f: T -> Option<U>, xs: seq<T>): (r: seq<U>)
    ensures |r| <= |xs|
  {
    if |xs| == 0 then []
    else
      match f(xs[0])
      case None => FilterMap(f, xs[1..])
      case Some(y) => [y] + FilterMap(f, xs[1..])
  }

  lemma {:induction false} FilterMapAppend<T, U>(f: T -> Option<U>, a: seq<T>, b: seq<T>)
    ensures FilterMap(f, a + b) == FilterMap(f, a) + FilterMap(f, b)
  {
    if |a| == 0 {
      assert a + b == b;
    } else {
      assert (a + b)[1..] == a[1..] + b;
      FilterMapAppend(f, a[1..], b);
    }
  }

  /** A property every `Some` result has is shared by every kept result. */
  lemma {:induction false} FilterMapAll<T, U>(f: T -> Option<U>, xs: seq<T>, p: U -> bool)
    requires forall i :: 0 <= i < |xs| && f(xs[i]).Some? ==> p(f(xs[i]).value)
    ensures forall k :: 0 <= k < |FilterMap(f, xs)| ==> p(FilterMap(f, xs)[k])
  {
    if |xs| > 0 {
      assert forall i :: 1 <= i < |xs| ==> xs[1..][i - 1] == xs[i];
      FilterMapAll(f, xs[1..], p);
    }
  }

  /** The positions of the items `f` keeps, in increasing order. */
  function Kept<T, U>(f: T -> Option<U>, xs: seq<T>): (idx: seq<nat>)
    ensures |idx| == |FilterMap(f, xs)|
  {
    if |xs| == 0 then []
    else (if f(xs[0]).Some? then [0] else []) + ShiftUp(Kept(f, xs[1..]))
  }

  lemma {:induction false} KeptIncreasing<T, U>(f: T -> Option<U>, xs: seq<T>)
    ensures IncreasingIndices(Kept(f, xs), |xs|)
  {
    if |xs| > 0 {
      KeptIncreasing(f, xs[1..]);
      ShiftUpIncreasing(Kept(f, xs[1..]), |xs| - 1);
    }
  }

  lemma {:induction false} KeptResults<T, U>(f: T -> Option<U>, xs: seq<T>)
    ensures forall k :: 0 <= k < |Kept(f, xs)| ==> Kept(f, xs)[k] < |xs| && f(xs[Kept(f, xs)[k]]) == Some(FilterMap(f, xs)[k])
  {
    if |xs| > 0 {
      var tail := Kept(f, xs[1..]);
      var rt := FilterMap(f, xs[1..]);
      KeptResults(f, xs[1..]);
      var shifted := ShiftUp(tail);
      forall j | 0 <= j < |tail|
        ensures shifted[j] < |xs| && f(xs[shifted[j]]) == Some(rt[j])
      {
        assert xs[shifted[j]] == xs[1..][tail[j]];
      }
      if f(xs[0]).Some? {
        assert FilterMap(f, xs) == [f(xs[0]).value] + rt;
        assert Kept(f, xs) == [0] + shifted;
      } else {
        assert FilterMap(f, xs) == rt;
        assert Kept(f, xs) == shifted;
      }
    }
  }

  lemma {:induction false} KeptComplete<T, U>(f: T -> Option<U>, xs: seq<T>)
    ensures forall i :: 0 <= i < |xs| && f(xs[i]).Some? ==> i in Kept(f, xs)
  {
    if |xs| > 0 {
      var tail := Kept(f, xs[1..]);
      KeptComplete(f, xs[1..]);
      var shifted := ShiftUp(tail);
      forall i | 1 <= i < |xs| && f(xs[i]).Some?
        ensures i in shifted
      {
        assert xs[i] == xs[1..][i - 1];
        var k :| 0 <= k < |tail| && tail[k] == i - 1;
        assert shifted[k] == i;
      }
    }
  }

  /** The kept results are exactly the `Some` values, in input order:
      result `k` is `f` of item `idx[k]`, and every item not listed in `idx`
      gave `None`. */
  lemma FilterMapSubsequence<T, U>(f: T -> Option<U>, xs: seq<T>) returns (idx: seq<nat>)
    ensures IncreasingIndices(idx, |xs|)
    ensures |idx| == |FilterMap(f, xs)|
    ensures forall k :: 0 <= k < |idx| ==> f(xs[idx[k]]) == Some(FilterMap(f, xs)[k])
    ensures forall i :: 0 <= i < |xs| && i !in idx ==> f(xs[i]).None?
  {
    idx := Kept(f, xs);
    KeptIncreasing(f, xs);
    KeptResults(f, xs);
    KeptComplete(f, xs);
  }
}

=== FILE: timeformat.dfy ===
/** The textual date and time formats the scraper writes (`%Y-%m-%d` and
    `%H:%M`) and the `%Y-%m-%d %H:%M` format the headline records parse
    back, restricted to four-digit years. */
module TimeFormat {
  import opened Wrappers
  import opened Times

  function DigitChar(n: int): (c: char)
    requires 0 <= n < 10
    ensures '0' <= c <= '9'
    ensures c as int - '0' as int == n
  {
    (n + '0' as int) as char
  }

  predicate IsDigit(c: char) {
    '0' <= c <= '9'
  }

  function DigitValue(c: char): (n: nat)
    requires IsDigit(c)
    ensures n < 10 && DigitChar(n) == c
  {
    c as int - '0' as int
  }

  /** `n` as exactly two decimal digits, zero-padded. */
  function Pad2(n: int): (s: string)
    requires 0 <= n < 100
    ensures |s| == 2 && IsDigit(s[0]) && IsDigit(s[1])
  {
    [DigitChar(n / 10), DigitChar(n % 10)]
  }

  /** `n` as exactly four decimal digits, zero-padded. */
  function Pad4(n: int): (s: string)
    requires 0 <= n < 10000
    ensures |s| == 4 && IsDigit(s[0]) && IsDigit(s[1]) && IsDigit(s[2]) && IsDigit(s[3])
  {
    Pad2(n / 100) + Pad2(n % 100)
  }

  /** The value of a two-digit field. */
  function Value2(s: string): (v: int)
    requires |s| == 2 && IsDigit(s[0]) && IsDigit(s[1])
    ensures 0 <= v < 100 && Pad2(v) == s
  {
    10 * DigitValue(s[0]) + DigitValue(s[1])
  }

  /** The value of a four-digit field. */
  function Value4(s: string): (v: int)
    requires |s| == 4 && IsDigit(s[0]) && IsDigit(s[1]) && IsDigit(s[2]) && IsDigit(s[3])
    ensures 0 <= v < 10000 && Pad4(v) == s
  {
    var hi, lo := Value2(s[..2]), Value2(s[2..]);
    assert s == s[..2] + s[2..];
    100 * hi + lo
  }

  lemma Value2OfPad2(n: int)
    requires 0 <= n < 100
    ensures Value2(Pad2(n)) == n
  {
  }

  lemma Value4OfPad4(n: int)
    requires 0 <= n < 10000
    ensures Value4(Pad4(n)) == n
  {
    var s := Pad4(n);
    assert s[..2] == Pad2(n / 100) && s[2..] == Pad2(n % 100);
    Value2OfPad2(n / 100);
    Value2OfPad2(n % 100);
  }

  /** Years the four-digit `%Y` field renders: strftime pads nothing below 1000. */
  predicate FourDigitYear(y: int) {
    1000 <= y <= 9999
  }

  /** Every field fits its zero-padded width (true of any valid instant with a four-digit year). */
  predicate Formattable(t: DateTime) {
    FourDigitYear(t.date.year) && 0 <= t.date.month < 100 && 0 <= t.date.day < 100
    && 0 <= t.hour < 100 && 0 <= t.minute < 100
  }

  /** `strftime("%Y-%m-%d")` */
  function FormatDate(d: Date): (s: string)
    requires FourDigitYear(d.year) && 0 <= d.month < 100 && 0 <= d.day < 100
    ensures |s| == 10 && s[4] == '-' && s[7] == '-'
  {
    Pad4(d.year) + "-" + Pad2(d.month) + "-" + Pad2(d.day)
  }

  /** `strftime("%H:%M")` */
  function FormatClock(t: DateTime): (s: string)
    requires 0 <= t.hour < 100 && 0 <= t.minute < 100
    ensures |s| == 5 && s[2] == ':'
  {
    Pad2(t.hour) + ":" + Pad2(t.minute)
  }

  /** The text `date + ' ' + time` that a headline record is parsed from. */
  function FormatDateTime(t: DateTime): (s: string)
    requires Formattable(t)
    ensures |s| == 16
  {
    FormatDate(t.date) + " " + FormatClock(t)
  }

  /** The layout `dddd-dd-dd dd:dd`. */
  predicate Shaped(s: string) {
    && |s| == 16 && s[4] == '-' && s[7] == '-' && s[10] == ' ' && s[13] == ':'
    && IsDigit(s[0]) && IsDigit(s[1]) && IsDigit(s[2]) && IsDigit(s[3])
    && IsDigit(s[5]) && IsDigit(s[6]) && IsDigit(s[8]) && IsDigit(s[9])
    && IsDigit(s[11]) && IsDigit(s[12]) && IsDigit(s[14]) && IsDigit(s[15])
  }

  /** The fields of a shaped text, unchecked against the calendar. */
  function Fields(s: string): DateTime
    requires Shaped(s)
  {
    DateTime(Date(Value4(s[0..4]), Value2(s[5..7]), Value2(s[8..10])),
             Value2(s[11..13]), Value2(s[14..16]))
  }

  /** `strptime(s, "%Y-%m-%d %H:%M")` on zero-padded text: `None` where
      strptime raises (wrong shape, or a field out of range for the calendar). */
  function ParseDateTime(s: string): (r: Option<DateTime>)
    ensures r.Some? ==> ValidDateTime(r.value) && FourDigitYear(r.value.date.year)
  {
    if !Shaped(s) then None
    else
      var t := Fields(s);
      if ValidDateTime(t) && FourDigitYear(t.date.year) then Some(t) else None
  }

  /** Formatting then parsing recovers the instant exactly (to the minute). */
  lemma ParseOfFormat(t: DateTime)
    requires ValidDateTime(t) && FourDigitYear(t.date.year)
    ensures ParseDateTime(FormatDateTime(t)) == Some(t)
  {
    var s := FormatDateTime(t);
    assert s[0..4] == Pad4(t.date.year);
    assert s[5..7] == Pad2(t.date.month);
    assert s[8..10] == Pad2(t.date.day);
    assert s[11..13] == Pad2(t.hour);
    assert s[14..16] == Pad2(t.minute);
    Value4OfPad4(t.date.year);
    Value2OfPad2(t.date.month);
    Value2OfPad2(t.date.day);
    Value2OfPad2(t.hour);
    Value2OfPad2(t.minute);
  }

  /** Parsing then formatting gives back the accepted text: the parser accepts
      exactly the texts the formatter produces. */
  lemma FormatOfParse(s: string)
    requires ParseDateTime(s).Some?
    ensures FormatDateTime(ParseDateTime(s).value) == s
  {
    var t := Fields(s);
    assert Pad4(t.date.year) == s[0..4];
    assert Pad2(t.date.month) == s[5..7];
    assert Pad2(t.date.day) == s[8..10];
    assert Pad2(t.hour) == s[11..13];
    assert Pad2(t.minute) == s[14..16];
    assert s == s[0..4] + "-" + s[5..7] + "-" + s[8..10] + " " + s[11..13] + ":" + s[14..16];
  }
}

=== FILE: times.dfy ===
/** Civil dates and minute-precision wall-clock times, the only notion of
    time the bot needs: the scraper, the exchange schedule and the headline
    records all work at minute precision on one wall clock. */
module Times {

  datatype Date = Date(year: int, month: int, day: int)

  /** A wall-clock instant at minute precision (seconds and timezone are not kept). */
  datatype DateTime = DateTime(date: Date, hour: int, minute: int)

  predicate IsLeapYear(y: int) {
    y % 4 == 0 && (y % 100 != 0 || y % 400 == 0)
  }

  function DaysInMonth(y: int, m: int): (n: int)
    ensures 1 <= m <= 12 ==> 28 <= n <= 31
    ensures m == 2 ==> (n == 29 <==> IsLeapYear(y))
  {
    if m == 2 then (if IsLeapYear(y) then 29 else 28)
    else if m == 4 || m == 6 || m == 9 || m == 11 then 30
    else 31
  }

  predicate ValidDate(d: Date) {
    1 <= d.month <= 12 && 1 <= d.day <= DaysInMonth(d.year, d.month)
  }

  predicate ValidDateTime(t: DateTime) {
    ValidDate(t.date) && 0 <= t.hour < 24 && 0 <= t.minute < 60
  }

  /** Strict chronological order of dates (lexicographic on year, month, day). */
  predicate DateBefore(a: Date, b: Date) {
    a.year < b.year
    || (a.year == b.year && (a.month < b.month || (a.month == b.month && a.day < b.day)))
  }

  /** Strict chronological order of instants. */
  predicate Before(a: DateTime, b: DateTime) {
    DateBefore(a.date, b.date)
    || (a.date == b.date && (a.hour < b.hour || (a.hour == b.hour && a.minute < b.minute)))
  }

  /** `a <= b` as instants. */
  predicate AtOrBefore(a: DateTime, b: DateTime) {
    !Before(b, a)
  }

  /** The calendar day after `d` (what adding one day to a timestamp does to its date). */
  function NextDate(d: Date): (r: Date)
    ensures ValidDate(d) ==> ValidDate(r) && DateBefore(d, r)
    ensures ValidDate(d) ==> PrevDate(r) == d
  {
    if d.day < DaysInMonth(d.year, d.month) then Date(d.year, d.month, d.day + 1)
    else if d.month < 12 then Date(d.year, d.month + 1, 1)
    else Date(d.year + 1, 1, 1)
  }

  /** The calendar day before `d`. */
  function PrevDate(d: Date): (r: Date)
    ensures ValidDate(d) ==> ValidDate(r) && DateBefore(r, d)
  {
    if d.day > 1 then Date(d.year, d.month, d.day - 1)
    else if d.month > 1 then Date(d.year, d.month - 1, DaysInMonth(d.year, d.month - 1))
    else Date(d.year - 1, 12, 31)
  }

  lemma NextOfPrev(d: Date)
    requires ValidDate(d)
    ensures NextDate(PrevDate(d)) == d
  {
  }

  /** No valid date lies strictly between a date and the day before it, nor
      between a date and the day after it: both steps are exactly one day. */
  lemma AdjacentDays(d: Date, x: Date)
    requires ValidDate(d) && ValidDate(x)
    ensures !(DateBefore(PrevDate(d), x) && DateBefore(x, d))
    ensures !(DateBefore(d, x) && DateBefore(x, NextDate(d)))
  {
  }

  /** The date `k` calendar days before `d` (subtracting a `k`-day offset):
      `k` is 0 for `d` itself, and each further day is one day earlier. */
  function DaysBefore(d: Date, k: nat): (r: Date)
    ensures k == 0 ==> r == d
    ensures ValidDate(d) ==> ValidDate(r)
    ensures ValidDate(d) && k > 0 ==> DateBefore(r, d)
  {
    if k == 0 then d else PrevDate(DaysBefore(d, k - 1))
  }

  /** Each further day back is exactly one day earlier: the day after
      `k` days back is `k - 1` days back. */
  lemma DaysBeforeStep(d: Date, k: nat)
    requires ValidDate(d) && k > 0
    ensures NextDate(DaysBefore(d, k)) == DaysBefore(d, k - 1)
  {
    NextOfPrev(DaysBefore(d, k - 1));
  }

  lemma DateBeforeTransitive(a: Date, b: Date, c: Date)
    requires DateBefore(a, b) && DateBefore(b, c)
    ensures DateBefore(a, c)
  {
  }

  /** Going further back gives a strictly earlier date. */
  lemma {:induction false} DaysBeforeMonotone(d: Date, j: nat, k: nat)
    requires ValidDate(d) && j < k
    ensures DateBefore(DaysBefore(d, k), DaysBefore(d, j))
    decreases k
  {
    if j < k - 1 {
      DaysBeforeMonotone(d, j, k - 1);
      DateBeforeTransitive(DaysBefore(d, k), DaysBefore(d, k - 1), DaysBefore(d, j));
    }
  }
}

=== FILE: trading.dfy ===
/** The session mapping and score arithmetic of `utils/trading_utils.py`. */
module TradingUtils {
  import opened Wrappers
  import opened Times
  import opened Schedule
  import opened Records
  import opened Seqs

  // ---------------------------------------------------------------------
  // Headline-to-session mapping
  // ---------------------------------------------------------------------

  /** The first session open or close at which a headline published at `t`
      can be traded: the day's open if published by then, the day's close if
      published during the session, and otherwise the next calendar day's
      open, if that day trades. A headline published on a non-trading day,
      or after the close before a non-trading day, gets no trade time. */
  function MapToSession(cal: Calendar, t: DateTime): (r: Option<DateTime>)
    ensures r.Some? ==> cal(t.date).Some?
  {
    match cal(t.date)
    case None => None
    case Some(s) =>
      if AtOrBefore(t, s.open) then Some(s.open)
      else if AtOrBefore(t, s.close) then Some(s.close)
      else
        match cal(NextDate(t.date))
        case None => None
        case Some(next) => Some(next.open)
  }

  /** The open and close of day `d`, if it trades. */
  function SessionBoundaries(cal: Calendar, d: Date): seq<DateTime> {
    match cal(d)
    case None => []
    case Some(s) => [s.open, s.close]
  }

  /** Every session boundary of the publish day and the day after. */
  function NearbyBoundaries(cal: Calendar, d: Date): seq<DateTime> {
    SessionBoundaries(cal, d) + SessionBoundaries(cal, NextDate(d))
  }

  /** `b` is the earliest of the instants `cs` that is not before `t`. */
  predicate IsFirstAtOrAfter(cs: seq<DateTime>, t: DateTime, b: DateTime) {
    && b in cs
    && AtOrBefore(t, b)
    && forall c :: c in cs && AtOrBefore(t, c) ==> AtOrBefore(b, c)
  }

  /** On a well-formed calendar the mapping picks the earliest session
      boundary of the publish day or the next day that is at or after the
      publish time, provided the publish day trades; no later day is ever
      searched, so a headline after a Friday close is dropped. */
  lemma MapToSessionIsFirstBoundary(cal: Calendar, t: DateTime)
    requires WellFormed(cal) && ValidDateTime(t)
    ensures MapToSession(cal, t).Some? ==>
              cal(t.date).Some? && IsFirstAtOrAfter(NearbyBoundaries(cal, t.date), t, MapToSession(cal, t).value)
    ensures MapToSession(cal, t).None? ==>
              cal(t.date).None? || forall c :: c in NearbyBoundaries(cal, t.date) ==> Before(c, t)
  {
    var d := t.date;
    var cs := NearbyBoundaries(cal, d);
    if cal(d).Some? {
      var s := cal(d).value;
      var nd := NextDate(d);
      assert DateBefore(d, nd);
      if cal(nd).Some? {
        var n := cal(nd).value;
        assert n.open.date == nd && n.close.date == nd;
        assert Before(t, n.open);
        assert cs == [s.open, s.close, n.open, n.close];
      } else {
        assert cs == [s.open, s.close];
      }
    }
  }

  /** A trade time is never earlier than the publish time. */
  lemma MapToSessionNotBeforePublish(cal: Calendar, t: DateTime)
    requires WellFormed(cal) && ValidDateTime(t)
    requires MapToSession(cal, t).Some?
    ensures AtOrBefore(t, MapToSession(cal, t).value)
  {
    MapToSessionIsFirstBoundary(cal, t);
  }

  /** A trade time, read as a publish time, maps to itself. */
  lemma MapToSessionIdempotent(cal: Calendar, t: DateTime)
    requires WellFormed(cal) && ValidDateTime(t)
    requires MapToSession(cal, t).Some?
    ensures MapToSession(cal, MapToSession(cal, t).value) == MapToSession(cal, t)
  {
    var d := t.date;
    var s := cal(d).value;
    if !AtOrBefore(t, s.close) {
      assert ValidDate(NextDate(d));
    }
  }

  /** A headline paired with its trade time, if it gets one. */
  function TradeEntry(cal: Calendar, h: Headline): Option<(string, DateTime)> {
    match MapToSession(cal, h.publishTime)
    case None => None
    case Some(t) => Some((h.headline, t))
  }

  /** Pairs each headline with its trade time, in input order, dropping the
      headlines that get none; never longer than its input. */
  function MapHeadlines(cal: Calendar, hs: seq<Headline>): (r: seq<(string, DateTime)>)
    ensures |r| <= |hs|
  {
    FilterMap(h => TradeEntry(cal, h), hs)
  }

  /** The output is an order-preserving selection of the input: entry `k` is
      headline `idx[k]`'s text with that headline's trade time, and every
      headline not selected gets no trade time. */
  lemma MapHeadlinesSubsequence(cal: Calendar, hs: seq<Headline>) returns (idx: seq<nat>)
    ensures IncreasingIndices(idx, |hs|)
    ensures |idx| == |MapHeadlines(cal, hs)|
    ensures forall k :: 0 <= k < |idx| ==>
              && MapToSession(cal, hs[idx[k]].publishTime).Some?
              && MapHeadlines(cal, hs)[k] == (hs[idx[k]].headline, MapToSession(cal, hs[idx[k]].publishTime).value)
    ensures forall i :: 0 <= i < |hs| && i !in idx ==> MapToSession(cal, hs[i].publishTime).None?
  {
    idx := FilterMapSubsequence(h => TradeEntry(cal, h), hs);
  }

  /** Mapping a concatenation maps each part independently. */
  lemma MapHeadlinesAppend(cal: Calendar, a: seq<Headline>, b: seq<Headline>)
    ensures MapHeadlines(cal, a + b) == MapHeadlines(cal, a) + MapHeadlines(cal, b)
  {
    FilterMapAppend(h => TradeEntry(cal, h), a, b);
  }

  // ---------------------------------------------------------------------
  // Score arithmetic
  // ---------------------------------------------------------------------

  /** A sentiment score: -1 (bad news), 0 (uncertain) or 1 (good news). */
  predicate IsScore(x: int) {
    -1 <= x <= 1
  }

  predicate AllScores(s: seq<int>) {
    forall i :: 0 <= i < |s| ==> IsScore(s[i])
  }

  /** The total of a list of scores; with every score in {-1, 0, 1} its
      magnitude is at most the number of scores. */
  function CumulativeScore(scores: seq<int>): (total: int)
    ensures AllScores(scores) ==> -|scores| <= total <= |scores|
  {
    if |scores| == 0 then 0 else scores[0] + CumulativeScore(scores[1..])
  }

  lemma {:induction false} CumulativeScoreAppend(a: seq<int>, b: seq<int>)
    ensures CumulativeScore(a + b) == CumulativeScore(a) + CumulativeScore(b)
  {
    if |a| > 0 {
      assert (a + b)[1..] == a[1..] + b;
      CumulativeScoreAppend(a[1..], b);
    } else {
      assert a + b == b;
    }
  }

  /** The total is the number of good-news scores minus the number of
      bad-news scores, whatever their order. */
  lemma {:induction false} CumulativeScoreCountsVotes(scores: seq<int>)
    requires AllScores(scores)
    ensures CumulativeScore(scores) == multiset(scores)[1] as int - multiset(scores)[-1] as int
  {
    if |scores| > 0 {
      CumulativeScoreCountsVotes(scores[1..]);
      assert scores == [scores[0]] + scores[1..];
      assert multiset(scores) == multiset{scores[0]} + multiset(scores[1..]);
    }
  }

  /** A total within [-n, n] of n items has its mean in [-1, 1]. */
  lemma MeanOfBounded(total: real, n: real)
    requires n > 0.0
    ensures (total / n) * n == total
    ensures -n <= total <= n ==> -1.0 <= total / n <= 1.0
  {
    var q := total / n;
    assert q * n == total;
    assert (q - 1.0) * n == total - n;
    assert (q + 1.0) * n == total + n;
  }

  /** The mean of a list of scores: undefined (`None`, NaN in the source) for
      no scores; otherwise it times the count is the total, and it lies in
      [-1, 1]. */
  function AverageScore(scores: seq<int>): (avg: Option<real>)
    ensures avg.None? <==> |scores| == 0
    ensures avg.Some? ==> avg.value * (|scores| as real) == CumulativeScore(scores) as real
    ensures avg.Some? && AllScores(scores) ==> -1.0 <= avg.value <= 1.0
  {
    if |scores| == 0 then None
    else
      var n := |scores| as real;
      var total := CumulativeScore(scores) as real;
      MeanOfBounded(total, n);
      Some(total / n)
  }
}

=== FILE: wrappers.dfy ===
/** Failure-carrying values used throughout the model: `Option` for the
    source's `None` returns, `Result` for the places where the source raises. */
module Wrappers {

  datatype Option<+T> = None | Some(value: T)

  datatype Result<+T, +E> = Success(value: T) | Failure(error: E)
}
